=== FILE: README.md ===
# auto_mockup_webpage, modelled in Dafny

`main.py` turns a web page into an animated device mockup. The page is captured at
a device's viewport, and the tall capture is cut into `frame_number + 1`
viewport-high frames whose tops glide from the top of the page to its bottom.
The frames are played as a looping GIF, and every GIF frame is warped into the
screen of a laptop or phone picture.

This project models the bookkeeping of that pipeline as pure Dafny functions
and proves what it guarantees. The browser, the pixels and the floating-point
solve are not modelled. The modules follow the program:

- `Common`: the error outcomes, `Result`/`Option`, and Python's `int(a / b)`
  (truncation toward zero) as `TruncDiv`.
- `Text`: `str(n)`, the `{n:03d}` format, `str.replace`, and the code-point order
  that `<` and `sorted` use on `str`.
- `Sorting`: `sorted` on a list of names. It is an insertion sort, and the result
  is proved to be the unique sorted permutation.
- `Screenshot`: the capture's file name and path (`screenWebPage`).
- `FrameNaming`: the frame file names `{base}_frame_{i:03d}.png` and the GIF name
  derived from the first sorted file (`os.path.basename`, `os.path.splitext`,
  `re.sub(r'_frame_\d+$', '', …)`).
- `FrameSlicer`: the crop boxes and file names of `createFrameFromImage`.
- `GifAssembler`: `createGifFromFrames`. It covers the sorted frame order, the
  per-frame delay, the output name and the empty-folder error.
- `Perspective`: the linear system `find_coeffs` builds for the warp, exactly
  as written, and the system a corner-to-corner warp needs.
- `Overlay`: `addOverlayToGif`, which builds one system per GIF frame and sets
  the output name, the delay and the loop count.
- `Pipeline`: `createMacMockup` / `createIphoneMockup` chained end to end.

Behaviour of `main.py` worth knowing:

- `createFrameFromImage` checks no parameters. A zero `frame_number` raises
  `ZeroDivisionError` before any frame is saved. A negative one saves nothing
  and raises nothing, because `range` is empty. A viewport taller than the
  image gives negative tops and is not rejected.
- The frames are stamped with the capture's base name after `replace('.png', '')`,
  which deletes every ".png" in the name, not only the extension. The frames of
  `https://a.pngb` are named `ab_…`, and the GIF is named after `ab` too.
- `addOverlayToGif` on a GIF without frames prints a message and returns. It
  raises nothing.
- A non-positive duration is not rejected. The delay is clamped to 1 ms.
- Sorted frame names are in index order only up to 1000 frames:
  `frame_1000` sorts before `frame_101`.

## Model

| member | source | states |
|---|---|---|
| Common.TruncDiv | main.py:117 | `int(a / b)` for `b > 0` truncates toward zero: for `a >= 0` the quotient times `b` is the largest multiple of `b` not above `a`; for `a <= 0` it is the smallest multiple not below `a` |
| Common.TruncDivPositive | main.py:153 | the truncated quotient is at least 1 exactly when the dividend is at least the divisor, i.e. when the `max(1, …)` clamp has no effect |
| Text.ZeroPad | main.py:123 | `{n:03d}` is all digits, reads back as `n`, and is `max(3, digits of n)` long |
| Text.DecimalRoundTrip | main.py:123 | reading back the digits `str(n)` writes gives `n` again |
| Text.DecimalLength | main.py:123 | `str(n)` has at most `k` digits exactly when `n < 10^k`, so three-digit padding keeps every index below 1000 at width 3 |
| Text.NatToDecimal | main.py:87 | `str(n)` for `n >= 0` is at least one digit, all digits, and starts with '0' only for 0; `Text.DecimalRoundTrip` reads it back as `n` |
| Text.IntToDecimal | main.py:87 | `str(i)` is the digits of `i` for `i >= 0`, and '-' followed by digits for `i < 0` |
| Text.ReplaceAll | main.py:87 | `str.replace`, a left-to-right scan; it has no contract of its own, and `Text.ReplaceAllUnchanged`, `Text.ReplaceAllChar` and `Text.ReplaceAllSkipsPrefix` state what it does |
| Text.ReplaceAllUnchanged | main.py:87 | `str.replace` changes nothing when the pattern does not occur |
| Text.ReplaceAllChar | main.py:87 | `replace('/', '_')` keeps the length, turns each '/' into '_' and keeps every other character |
| Text.ReplaceAllSkipsPrefix | main.py:109 | where the pattern starts nowhere inside a prefix, `str.replace` keeps that prefix and works on the rest alone |
| Text.LexLessTransitive | main.py:135 | the `str` order `sorted` uses is transitive |
| Text.LexLessTotal | main.py:135 | any two distinct names are ordered one way or the other |
| Text.LexLessIrreflexive | main.py:135 | no name is below itself |
| Text.LexLessCommonPrefix | main.py:135 | a shared prefix does not change how two names compare |
| Text.SameWidthDigitsOrder | main.py:123 | digit strings of equal width compare as `str` exactly as their numeric values compare |
| Sorting.Insert | main.py:135 | inserting into a sorted list keeps it sorted and adds exactly that one name |
| Sorting.SortNames | main.py:135 | `sorted` returns a sorted permutation of the listing |
| Sorting.SortedUnique | main.py:135 | two sorted permutations of the same names are equal, so `sorted`'s result does not depend on the listing order |
| Sorting.SortRestoresIncreasing | main.py:135 | sorting any arrangement of a strictly increasing list gives that list back |
| FrameNaming.ImageName | main.py:109 | `basename(path).replace('.png', '')`; no contract of its own. `Screenshot.ImageNameOfHost` gives the stem of a host without ".png", and `Screenshot.InnerPngRemoved` shows that a ".png" inside the host is deleted too |
| FrameNaming.FrameName | main.py:123 | `{base}_frame_{i:03d}.png`; no contract of its own. `FrameNaming.GifNameRoundTrip` recovers `{base}.gif` from it, and `FrameNaming.FrameNameOrder` and `FrameNaming.FrameNamesSorted` state how the names sort |
| FrameNaming.GifOutputName | main.py:146-149 | `splitext`, then `re.sub`, then `.gif`; no contract of its own. `FrameNaming.GifNameRoundTrip` states that it gives `{base}.gif` for every frame name |
| FrameNaming.BaseName | main.py:109 | `os.path.basename` is the longest suffix without '/', preceded by '/' when shorter than the path |
| FrameNaming.SplitExtRoot | main.py:147 | `os.path.splitext(p)[0]` is a prefix of `p`; it is shorter exactly when the last path component holds a '.' after a character other than '.', and then it stops at the last '.' of the path |
| FrameNaming.SplitExtRemovesExt | main.py:147 | `splitext` turns `{stem}.{ext}` into `{stem}` whenever the stem does not end in '.' or '/' and the extension holds neither |
| FrameNaming.LastIndexOf | main.py:147 | `rfind` returns a position holding the character with none after it, or -1 when absent |
| FrameNaming.TrailingDigits | main.py:148 | counts the maximal run of ASCII digits ending the string |
| FrameNaming.FrameSuffixStem | main.py:148 | a stem is found exactly when the string ends in `_frame_` followed by one or more digits, and the string is that stem plus the suffix |
| FrameNaming.StripFrameSuffix | main.py:148 | `re.sub(r'_frame_\d+$', '', s)` removes nothing but a `_frame_` marker with its digits, found at the very end or just before a final newline |
| FrameNaming.StripRemovesMarker | main.py:148 | `re.sub` turns `{stem}_frame_{digits}` into `{stem}` for any stem and any non-empty run of digits |
| FrameNaming.StripRemovesMarkerBeforeNewline | main.py:148 | `{stem}_frame_{digits}` followed by a final newline becomes `{stem}` followed by that newline, because `$` also matches before it |
| FrameNaming.GifNameRoundTrip | main.py:146-149 | for any base and index, deriving the GIF name from `{base}_frame_{i:03d}.png` gives `{base}.gif` |
| FrameNaming.FrameNameOrder | main.py:123 | for indices `i < j < 1000` the name of frame `i` sorts before that of frame `j` |
| FrameNaming.FrameZeroFirst | main.py:123 | frame 0's name sorts before every other frame's name at any count |
| FrameNaming.FrameNamesIncreasing | main.py:135 | the frame names in index order are strictly increasing exactly when there are at most 1000 of them |
| FrameNaming.FrameNamesSorted | main.py:135 | the index order is a sorted order exactly when there are at most 1000 frames |
| FrameNaming.ThousandBeforeHundredOne | main.py:123 | `{base}_frame_1000.png` sorts before `{base}_frame_101.png` |
| FrameNaming.FirstSortedFrame | main.py:146 | in the sorted listing of one run's frames the first name is frame 0's |
| FrameSlicer.StartHeight | main.py:117 | `int(i * (H - vh) / n)` through `Common.TruncDiv`, whose bracket fixes the quotient rounded toward zero; no contract of its own. `FrameSlicer.SliceEndpoints`, `FrameSlicer.SliceStep`, `FrameSlicer.SliceMonotone` and `FrameSlicer.SliceCoverage` state what the tops do |
| FrameSlicer.CropBox | main.py:117-120 | every crop box starts at the left edge, is the full image width and is exactly one viewport high |
| FrameSlicer.SliceFrame | main.py:117-123 | frame `i` is saved as `{base}_frame_{i:03d}.png`, with a full-width, viewport-high box whose top is `int(i * (H - vh) / n)` |
| FrameSlicer.CreateFrames | main.py:116-123 | zero frames requested divides by zero; a negative count saves nothing and succeeds; otherwise exactly `n + 1` frames in index order, frame `i` as above |
| FrameSlicer.SliceEndpoints | main.py:117 | the first top is 0 and the last top is exactly `H - vh`, so the last frame ends at the bottom of the image |
| FrameSlicer.SliceMonotone | main.py:117 | when the viewport fits in the image, tops never decrease with the index |
| FrameSlicer.SliceWithinImage | main.py:117-118 | when the viewport fits, every box lies within the image: `0 <= top` and `bottom <= H` |
| FrameSlicer.SliceStep | main.py:117 | for any image and viewport heights, including a viewport taller than the image, consecutive tops differ by `(H - vh) / n` rounded down, or by one more |
| FrameSlicer.StepAtMostViewport | main.py:117 | for any image and viewport heights, when `H - vh <= n * vh` no step between tops exceeds the viewport |
| FrameSlicer.SliceCoverage | main.py:116-120 | for a non-empty capture (or any capture when `vh >= 0`), every row appears in some frame exactly when `H - vh <= n * vh`. With fewer frames a band of rows never appears. A viewport taller than the capture shows every row in frame 0 |
| FrameSlicer.SkippedStep | main.py:117 | with too few frames some step is taller than the viewport |
| FrameSlicer.RowSkipped | main.py:117-120 | the row just below a frame whose next step is too tall appears in no frame |
| GifAssembler.FrameDelay | main.py:153 | the delay is at least 1 ms; with at least a millisecond per frame, the frames together play at most the requested time and less than one millisecond per frame short of it; otherwise it is 1 ms |
| GifAssembler.FrameDelayExamples | main.py:153 | 2 s over 5 frames is 400 ms; 0 s clamps to 1 ms; 1 s over 5000 frames clamps to 1 ms; no frames counts as one |
| GifAssembler.CreateGif | main.py:135-153 | an empty folder is an error; otherwise the frames play in sorted order, are exactly the listed files, the name comes from the first sorted file, and the delay and infinite loop are as computed |
| GifAssembler.ListingOrderIrrelevant | main.py:135 | the GIF is the same whatever order the directory listing comes in |
| GifAssembler.AssembleSlicedFrames | main.py:135-153 | the frames of one slicing run, up to 1000 of them and listed in any order, give `{base}.gif` playing them in index order |
| GifAssembler.SlicedGif | main.py:135-153 | at any frame count the GIF of one run is `{base}.gif`; its frames are in index order exactly when there are at most 1000 |
| Perspective.TruncToInt | main.py:220 | `int(v)` on a float is the integer part, rounded toward zero |
| Perspective.TruncatePoints | main.py:220 | each destination point is its coordinates truncated with `int` |
| Perspective.XRow | main.py:200 | the first row as written, `[x, y, 1, 0, 0, 0, -X*x, -Y*x]`; no contract of its own. `Perspective.WrittenSystemEquations` states the equation it imposes |
| Perspective.YRow | main.py:201 | the second row as written, `[0, 0, 0, x, y, 1, -X*y, -Y*y]`; no contract of its own. `Perspective.WrittenSystemEquations` states the equation it imposes |
| Perspective.FindCoeffsSystem | main.py:199-204 | the matrix `A` and the vector `B` of `find_coeffs`; no contract of its own. `Perspective.WrittenSystemEquations` characterises its solutions, and `Perspective.RectangleSolutionUnique` and `Perspective.WrittenSystemMisplacesCorner` solve it for the two quads of interest |
| Perspective.CoefficientRows | main.py:199-201 | two rows of eight entries per pair of `zip(pa, pb)`, as written: `[x, y, 1, 0, 0, 0, -X*x, -Y*x]` and `[0, 0, 0, x, y, 1, -X*y, -Y*y]` |
| Perspective.RightHandSide | main.py:204 | the right-hand side is every source point's `x` then `y`, flattened in order |
| Perspective.OverlaySystem | main.py:220-225 | the right-hand side is `0, 0, fw, 0, 0, fh, fw, fh`; the matrix is square exactly when the configured quad has at least four points, and then every row has eight entries |
| Perspective.WrittenSystemEquations | main.py:199-205 | a coefficient vector solves the system as written exactly when it satisfies, for every pair, the two equations those rows impose |
| Perspective.IntendedSystemSendsCorners | main.py:192-196 | with the non-linear terms paired as a perspective fit needs them, a vector solves the system exactly when the transform sends every destination point to its source point |
| Perspective.AffineSolutionsAgree | main.py:200-201 | for transforms with `g = h = 0` the rows as written and the intended rows have the same solutions |
| Perspective.RectangleSystemSendsCorners | main.py:220-225 | for an axis-aligned rectangle, the system as written is solved by a transform that sends each corner to the matching frame corner |
| Perspective.RectangleSolutionUnique | main.py:199-205 | for an axis-aligned rectangle and a frame of non-zero size, that transform is the only solution of the system as written |
| Perspective.SkewedWrittenSolves | main.py:199-205 | for the quad (1,0),(3,1),(0,2),(4,4) on a 1 x 1 frame the system as written has the solution (1/5, 1/10, -1/5, -1/3, 1/2, 1/3, -1/6, 1/6) |
| Perspective.WrittenSystemMisplacesCorner | main.py:200-201 | for that quad, every solution of the system as written is that one, and it does not send corner (3,1) to the frame corner (1,0) |
| Perspective.IntendedSystemFitsSkewedQuad | main.py:192-196 | for the same quad the intended system is solved by a transform sending all four corners home |
| Overlay.OverlayOutputName | main.py:246 | `gif_path[:-4] + "_with_overlay.gif"`: ends with the suffix, and what precedes it is the first `len(gif_path) - 4` characters of the path, or nothing for a shorter path |
| Overlay.OverlayNameOfGif | main.py:246 | `{base}.gif` becomes `{base}_with_overlay.gif` |
| Overlay.AddOverlay | main.py:214-251 | a GIF without frames produces nothing and raises nothing; otherwise one system per frame in frame order, each built from that frame's size, with the file's delay or 100 ms, looping forever |
| Overlay.PresetsFitExactly | main.py:220-225 | both device quads truncate to rectangles, so for any frame size the system as written has a solution that sends each screen corner to the frame corner |
| Overlay.RectangleOverlaySolution | main.py:217-225 | for a quad that truncates to a rectangle and a frame of non-zero size, every solution of the frame's system is the scaling-and-shift fit, which sends each screen corner to the frame corner |
| Screenshot.ScreenshotName | main.py:87 | the capture's name has no '/' and ends with `_{width}x{height}.png` |
| Screenshot.SchemeUrlName | main.py:87 | for `https://{rest}`, `http://{rest}` and a bare `{rest}`, where neither scheme string occurs in `rest`, the name is `rest` with each '/' turned into '_', then `_{width}x{height}.png` |
| Screenshot.ScreenshotPath | main.py:99 | the path `screen/{name}`; no contract of its own. `Screenshot.BaseNameOfScreenshot` states that its base name is the capture's name |
| Screenshot.InnerPngRemoved | main.py:109 | for a host `{x}.png{y}`, with `x` neither '/' nor '.' and `y` not '/', the frames are stamped `{x}{y}_{width}x{height}`, because `replace` deletes every ".png" |
| Screenshot.BaseNameOfScreenshot | main.py:99 | the base name of the returned path is the capture's name |
| Screenshot.HostUrlName | main.py:87 | for a host without '/', the `https://` URL, the `http://` URL and the bare host all give `{host}_{width}x{height}.png` |
| Screenshot.ImageNameOfHost | main.py:87-109 | when the host holds no '/' and no ".png", the frames of its capture are stamped `{host}_{width}x{height}` |
| Pipeline.FolderListing | main.py:135 | the folder holds one name per saved frame, the name of frame `i` at position `i` |
| Pipeline.MockupRun | main.py:262-272 | zero frames fails by division by zero, and a negative count fails on the empty folder. Otherwise the run yields `n + 1` frames, GIF frames and overlay systems, and frame `i` is the `i`-th slice of the capture, with its name and crop box |
| Pipeline.MockupGif | main.py:269-271 | the GIF is named after the capture, spreads the requested time over the frames, and plays them in index order exactly when there are at most 1000 |
| Pipeline.MockupOverlay | main.py:269-272 | the overlay GIF is named after the capture with `_with_overlay.gif`, and every frame gets the system for a capture-wide, viewport-high frame |
| Pipeline.MacMockupOfHost | main.py:260-272 | for a host with no '/' and no ".png" in it, and a positive frame count, the Mac mockup of `https://{host}` produces `{host}_1920x1080.gif` and `{host}_1920x1080_with_overlay.gif` |
| Pipeline.IphoneMockupOfHost | main.py:280-292 | for a host with no '/' and no ".png" in it, and a positive frame count, the iPhone mockup of `https://{host}` produces `{host}_828x1792.gif` and `{host}_828x1792_with_overlay.gif` |

## Left out

- SliceCoverage: the equivalence is not stated for an empty capture (`H <= 0`) under a negative viewport height. No row exists there, so every row is trivially shown, but `H - vh <= n * vh` can fail, for example with `H = 0`, `vh = -1`, `n = 1`. A browser reports neither height as negative.
- Browser capture is not modelled: Playwright, cookie-banner clicking and the waiting loop. The capture's size is a parameter of `Pipeline.MockupRun`.
- Filesystem effects are not modelled: `makedirs`, `save`, `remove`, `rmdir` and `cleanUpTempFolders`. The frames folder is modelled as the list of names written into it, and `os.listdir`'s order as an arbitrary arrangement of that list.
- Pillow's pixel work is not modelled: decoding, `crop`, the bicubic `transform`, `paste` and GIF encoding. A frame is represented by its file name and crop box, or by its perspective system.
- `np.linalg.solve` is not modelled, since it is floating-point linear algebra. Its `LinAlgError` on a singular matrix, and on a non-square one when the quad has fewer than four points, is therefore not modelled either. The model states which coefficient vectors solve the system exactly, over the reals.
- GIF frame iteration, which ends by catching `EOFError`, is not modelled. The frames are given as the list of their sizes.
- The interactive `input()` prompts and their `int()` conversions are not modelled. A non-numeric answer raises in Python; here the answers are integer parameters.
- Pillow may merge identical consecutive frames when it saves a GIF. It also stores delays in hundredths of a second, so the duration it reads back can differ from the one written. The delay read back is therefore a parameter of `Overlay.AddOverlay` and `Pipeline.MockupRun`.
- The printed messages are not modelled.
- Pipeline.MockupRun: the promised `frameCount + 1` GIF frames and overlay systems assume that Pillow merges no frames. When `-frameCount < H - vh < frameCount`, the `frameCount + 1` tops lie within fewer than `frameCount + 1` distinct values between 0 and `H - vh`, so some step between tops is 0 (`FrameSlicer.SliceStep` gives a step of `(H - vh) / n` or one more, which is 0 or 1 for `0 <= H - vh < n`, and -1 or 0 for `-n < H - vh < 0`). Consecutive frames can then be identical. With `H == vh` every frame is identical, and Pillow would store fewer frames.
- FrameSlicer.StartHeight: `int(i * (H - vh) / n)` divides in floating point. The model divides exactly. The two agree whenever `frame_number * |H - vh| < 2^53`, because the rounding error of the quotient then stays below `1 / frame_number`. Above that bound a correctly rounded quotient can round up to the next whole number: for example `H - vh = 6755399441055745`, `n = 3`, `i = 2`.
- GifAssembler.FrameDelay: `int((duration / n) * 1000)` is idealised as the exact `int(duration * 1000 / n)`. In floating point the product can fall just below a whole number, giving one millisecond less.
- FrameNaming.StripFrameSuffix: `\d` is modelled as the ASCII digits only. Python's `re` also matches other Unicode decimal digits in `str` patterns.
- FrameNaming.SplitExtRoot: it models POSIX `os.path.splitext`, not the Windows variant.

## Findings

| source | as written | input that shows it | evidently intended | confidence | as-written member | corrected member |
|---|---|---|---|---|---|---|
| main.py:200-201 | the non-linear entries are `-X*x, -Y*x` in the first row and `-X*y, -Y*y` in the second, which pairs each source coordinate with the wrong equation | destination quad (1,0), (3,1), (0,2), (4,4) on a 1 x 1 frame: the unique solution (1/5, 1/10, -1/5, -1/3, 1/2, 1/3, -1/6, 1/6) samples the frame at (3/4, -1/4) at corner (3,1) instead of at (1,0) | `-X*x, -X*y` in the first row and `-Y*x, -Y*y` in the second, so that the solved transform sends every screen corner to the matching frame corner | high, not executed | Perspective.WrittenSystemMisplacesCorner | Perspective.IntendedSystemSendsCorners |

The two systems have the same solutions whenever the solution is affine
(`Perspective.AffineSolutionsAgree`). Both device quads are rectangles
(`Overlay.PresetsFitExactly`). For a rectangle and a frame of non-zero size, the
system as written has exactly one solution, and that solution sends every
corner home (`Overlay.RectangleOverlaySolution`). So both shipped presets still
fit exactly. A non-rectangular
screen quad would show the discrepancy. `Overlay.AddOverlay` keeps the rows as
written, since that is the system the program hands to the solver. The
corrected system, `Perspective.IntendedSystem`, is the one whose solutions are
proved to be exactly the corner-to-corner warps.

=== FILE: common.dfy ===
/** Shared vocabulary of the mockup pipeline: the failures the Python code raises,
    a result wrapper that carries them, and the integer helpers that stand in for
    Python's `max` and `int(x / y)`. */
module Common {

  /** The exceptions the modelled code raises. */
  datatype Error =
    | ZeroDivision   // `int(i * (h - vh) / 0)` when zero frames are requested
    | NoFrameFiles   // `ValueError("No frame files found in folder.")`

  datatype Result<T> = Ok(value: T) | Err(error: Error)

  datatype Option<T> = None | Some(value: T)

  function Max(a: int, b: int): (m: int)
    ensures m >= a && m >= b
    ensures m == a || m == b
  {
    if a >= b then a else b
  }

  /** Python's `int(a / b)` for a positive divisor: the exact quotient rounded
      toward zero (Dafny's own `/` rounds toward negative infinity). */
  function TruncDiv(a: int, b: int): (q: int)
    requires b > 0
    ensures 0 <= a ==> 0 <= q * b <= a < q * b + b
    ensures a <= 0 ==> q * b - b < a <= q * b <= 0
  {
    if a >= 0 then
      FloorBracket(a, b);
      a / b
    else
      FloorBracket(-a, b);
      assert (-((-a) / b)) * b == -(((-a) / b) * b);
      -((-a) / b)
  }

  /** Dafny's `/` on a non-negative dividend: the quotient times `b` is the
      largest multiple of `b` not above `a`, and is itself not negative. */
  lemma FloorBracket(a: int, b: int)
    requires a >= 0 && b > 0
    ensures 0 <= (a / b) * b <= a < (a / b) * b + b
  {
    assert a == (a / b) * b + a % b;
    assert a / b >= 0;
  }

  /** Dafny's `/` by a positive divisor rounds toward negative infinity for
      any dividend, negative ones included. */
  lemma FloorBracketAny(a: int, b: int)
    requires b > 0
    ensures (a / b) * b <= a < (a / b) * b + b
  {
    assert a == (a / b) * b + a % b;
  }

  /** Two quotients rounded toward zero from dividends on the same side of 0
      differ, times `b`, by less than `b` from the difference of the dividends. */
  lemma TruncDivStep(a: int, d: int, b: int)
    requires b > 0 && ((0 <= a && 0 <= d) || (a <= 0 && d <= 0))
    ensures d - b < (TruncDiv(a + d, b) - TruncDiv(a, b)) * b < d + b
  {
    var t, t' := TruncDiv(a, b), TruncDiv(a + d, b);
    assert (t' - t) * b == t' * b - t * b;
  }

  /** Multiplying by a positive factor keeps the order of the other factor. */
  lemma MulMonotone(x: int, y: int, b: int)
    requires x <= y && b > 0
    ensures x * b <= y * b
  {
    var d := y - x;
    assert y * b == x * b + d * b;
  }

  /** Dividing out a positive factor keeps a strict order. */
  lemma MulCancelLess(x: int, y: int, b: int)
    requires b > 0 && x * b < y * b
    ensures x < y
  {
    if y <= x {
      MulMonotone(y, x, b);
    }
  }

  /** The quotient is the one multiple of the divisor that brackets the dividend. */
  lemma TruncDivUnique(a: int, b: int, q: int)
    requires b > 0 && 0 <= a
    requires q * b <= a < q * b + b
    ensures TruncDiv(a, b) == q
  {
    var t := TruncDiv(a, b);
    if t < q {
      MulMonotone(t + 1, q, b);
    } else if t > q {
      MulMonotone(q + 1, t, b);
    }
  }

  /** The quotient is at least one exactly when the dividend reaches the divisor. */
  lemma TruncDivPositive(a: int, b: int)
    requires b > 0
    ensures TruncDiv(a, b) >= 1 <==> a >= b
  {
    var q := TruncDiv(a, b);
    if q >= 1 {
      MulMonotone(1, q, b);
    } else if a >= b {
      MulMonotone(q, 0, b);
    }
  }

  /** Dividing an exact multiple loses nothing, whatever its sign. */
  lemma TruncDivExact(k: int, b: int)
    requires b > 0
    ensures TruncDiv(k * b, b) == k
  {
    var q := TruncDiv(k * b, b);
    if q < k {
      MulMonotone(q + 1, k, b);
    } else if q > k {
      MulMonotone(k + 1, q, b);
    }
  }

  /** Truncation is monotone in the dividend. */
  lemma TruncDivMonotone(a: int, a': int, b: int)
    requires b > 0 && a <= a'
    ensures TruncDiv(a, b) <= TruncDiv(a', b)
  {
    var q, q' := TruncDiv(a, b), TruncDiv(a', b);
    if q > q' {
      MulMonotone(q' + 1, q, b);
    }
  }
}

=== FILE: frame_naming.dfy ===
/** File names of the intermediate frames and of the GIF assembled from them:
    `createFrameFromImage` writes `{base}_frame_{i:03d}.png` (main.py:109, 123),
    and `createGifFromFrames` recovers `{base}.gif` from the first name in sorted
    order (main.py:146-149). */
module FrameNaming {
  import opened Common
  import opened Text
  import opened Sorting

  const FrameMarker: string := "_frame_"

  /** Width of the zero-padded frame index, the `03d` in main.py:123. */
  const IndexWidth: nat := 3

  /** Python's `os.path.basename`: the part after the last '/'. */
  function BaseName(path: string): (r: string)
    ensures |r| <= |path| && r == path[|path| - |r|..]
    ensures '/' !in r
    ensures |r| < |path| ==> path[|path| - |r| - 1] == '/'
  {
    if |path| == 0 || path[|path| - 1] == '/' then ""
    else BaseName(path[..|path| - 1]) + [path[|path| - 1]]
  }

  /** The name the frames are stamped with: the screenshot's base name with
      every ".png" removed (main.py:109). */
  function ImageName(imagePath: string): string {
    ReplaceAll(BaseName(imagePath), ".png", "")
  }

  /** The file name of frame `i` (main.py:123). */
  function FrameName(base: string, i: nat): string {
    base + FrameMarker + ZeroPad(i, IndexWidth) + ".png"
  }

  /** The names of frames `0 .. count - 1`, in index order. */
  function FrameNames(base: string, count: nat): (r: seq<string>)
    ensures |r| == count
    ensures forall i :: 0 <= i < count ==> r[i] == FrameName(base, i)
  {
    seq(count, i requires 0 <= i => FrameName(base, i))
  }

  /** Index of the last `c` in `s`, or -1 (Python's `str.rfind`). */
  function LastIndexOf(s: string, c: char): (r: int)
    ensures -1 <= r < |s|
    ensures r >= 0 ==> s[r] == c
    ensures forall k :: r < k < |s| ==> s[k] != c
  {
    if |s| == 0 then -1
    else if s[|s| - 1] == c then |s| - 1
    else LastIndexOf(s[..|s| - 1], c)
  }

  /** The last path component of `p` holds a '.' after some character that is
      not itself a '.': the condition under which `splitext` finds an extension. */
  predicate HasExtension(p: string) {
    exists k, j :: 0 <= k < j < |p| && p[k] != '.' && p[j] == '.' && '/' !in p[k..]
  }

  /** Python's `os.path.splitext(p)[0]` on a POSIX path: the last '.' of the
      last path component starts the extension, unless every character before
      it in that component is itself a '.' (a hidden file such as ".png"). */
  function SplitExtRoot(p: string): (r: string)
    ensures |r| <= |p| && r == p[..|r|]
    ensures r != p <==> HasExtension(p)
    ensures r != p ==> p[|r|] == '.' && '.' !in p[|r| + 1..] && '/' !in p[|r| + 1..]
  {
    var sep := LastIndexOf(p, '/');
    var dot := LastIndexOf(p, '.');
    if dot > sep && (exists k :: sep < k < dot && p[k] != '.') then
      var k :| sep < k < dot && p[k] != '.';
      assert '/' !in p[k..] by {
        forall m | 0 <= m < |p[k..]| ensures p[k..][m] != '/' {
          assert p[k..][m] == p[k + m];
        }
      }
      assert HasExtension(p) by {
        assert 0 <= k < dot < |p| && p[k] != '.' && p[dot] == '.' && '/' !in p[k..];
      }
      p[..dot]
    else
      assert !HasExtension(p) by {
        forall k, j | 0 <= k < j < |p| && p[j] == '.' && '/' !in p[k..]
          ensures p[k] == '.'
        {
          AbsentFromSuffix(p, k, '/');
          assert sep < k && j <= dot;
        }
      }
      p
  }

  /** A character absent from `p[k..]` is at no position from `k` on. */
  lemma AbsentFromSuffix(p: string, k: nat, c: char)
    requires k <= |p| && c !in p[k..]
    ensures forall m :: k <= m < |p| ==> p[m] != c
  {
    forall m | k <= m < |p| ensures p[m] != c {
      assert p[k..][m - k] == p[m];
    }
  }

  /** `splitext` drops a final `.ext` from a name whose stem does not end in '.'
      or '/' and whose extension holds neither. */
  lemma SplitExtRemovesExt(stem: string, ext: string)
    requires |stem| > 0 && stem[|stem| - 1] != '.' && stem[|stem| - 1] != '/'
    requires '.' !in ext && '/' !in ext
    ensures SplitExtRoot(stem + "." + ext) == stem
  {
    var p := stem + "." + ext;
    var k := |stem| - 1;
    assert p[k..] == [stem[k]] + "." + ext;
    assert HasExtension(p) by {
      assert 0 <= k < k + 1 < |p| && p[k] != '.' && p[k + 1] == '.' && '/' !in p[k..];
    }
    var r := SplitExtRoot(p);
    assert p[|stem| + 1..] == ext;
    AbsentFromSuffix(p, |stem| + 1, '.');
    AbsentFromSuffix(p, |r| + 1, '.');
    assert p[|stem|] == '.' && p[|r|] == '.';
  }

  /** Number of ASCII digits at the end of `s`. */
  function TrailingDigits(s: string): (n: nat)
    ensures n <= |s|
    ensures forall k :: |s| - n <= k < |s| ==> IsDigit(s[k])
    ensures n < |s| ==> !IsDigit(s[|s| - n - 1])
  {
    if |s| == 0 || !IsDigit(s[|s| - 1]) then 0
    else TrailingDigits(s[..|s| - 1]) + 1
  }

  /** `s` is `stem` followed by the frame marker and one or more digits. */
  ghost predicate MarkedBy(s: string, stem: string) {
    exists d: string :: |d| > 0 && AllDigits(d) && s == stem + FrameMarker + d
  }

  /** Where `_frame_\d+` ends exactly at the end of `s`, the text before it. */
  function FrameSuffixStem(s: string): (r: Option<string>)
    ensures r.Some? <==> exists k: nat, d: string ::
      |d| > 0 && AllDigits(d) && k + |FrameMarker| + |d| == |s| && s == s[..k] + FrameMarker + d
    ensures r.Some? ==> MarkedBy(s, r.value)
  {
    var n := TrailingDigits(s);
    var k := |s| - n;
    if n > 0 && k >= |FrameMarker| && s[k - |FrameMarker|..k] == FrameMarker then
      assert s == s[..k - |FrameMarker|] + s[k - |FrameMarker|..k] + s[k..];
      assert AllDigits(s[k..]) by {
        forall m | 0 <= m < |s[k..]| ensures IsDigit(s[k..][m]) {
          assert s[k..][m] == s[k + m];
        }
      }
      Some(s[..k - |FrameMarker|])
    else
      assert forall k': nat, d: string ::
        |d| > 0 && AllDigits(d) && k' + |FrameMarker| + |d| == |s| && s == s[..k'] + FrameMarker + d ==> false by {
        forall k': nat, d: string |
          |d| > 0 && AllDigits(d) && k' + |FrameMarker| + |d| == |s| && s == s[..k'] + FrameMarker + d
          ensures false
        {
          TrailingRunIsMarked(s, k', d);
        }
      }
      None
  }

  /** The digit run after a marker is the whole trailing run of digits, since the
      marker ends in '_'. */
  lemma TrailingRunIsMarked(s: string, k: nat, d: string)
    requires |d| > 0 && AllDigits(d) && k + |FrameMarker| + |d| == |s| && s == s[..k] + FrameMarker + d
    ensures TrailingDigits(s) == |d|
    ensures s[|s| - |d| - |FrameMarker|..|s| - |d|] == FrameMarker
  {
    assert forall m :: 0 <= m < |d| ==> s[k + |FrameMarker| + m] == d[m];
    assert s[|s| - |d| - 1] == '_';
    assert s[|s| - |d| - |FrameMarker|..|s| - |d|] == s[k..k + |FrameMarker|];
  }

  /** Python's `re.sub(r'_frame_\d+$', '', s)` (main.py:148): `$` matches at the
      end of the text or just before a final newline. */
  function StripFrameSuffix(s: string): (r: string)
    ensures r == s || MarkedBy(s, r) ||
      (|s| > 0 && s[|s| - 1] == '\n' && |r| > 0 && MarkedBy(s[..|s| - 1], r[..|r| - 1]))
  {
    match FrameSuffixStem(s)
    case Some(stem) => stem
    case None =>
      if |s| > 0 && s[|s| - 1] == '\n' then
        match FrameSuffixStem(s[..|s| - 1])
        case Some(stem) =>
          assert (stem + "\n")[..|stem|] == stem;
          stem + "\n"
        case None => s
      else s
  }

  /** A `_frame_` marker followed by digits at the very end is removed. */
  lemma StripRemovesMarker(stem: string, d: string)
    requires |d| > 0 && AllDigits(d)
    ensures StripFrameSuffix(stem + FrameMarker + d) == stem
  {
    var s := stem + FrameMarker + d;
    assert s[..|stem|] == stem;
    TrailingRunIsMarked(s, |stem|, d);
  }

  /** The same marker just before a final newline is removed too, and the
      newline is kept, since `$` matches in front of it. */
  lemma StripRemovesMarkerBeforeNewline(stem: string, d: string)
    requires |d| > 0 && AllDigits(d)
    ensures StripFrameSuffix(stem + FrameMarker + d + "\n") == stem + "\n"
  {
    var t := stem + FrameMarker + d;
    var s := t + "\n";
    assert s[..|s| - 1] == t;
    assert !IsDigit(s[|s| - 1]);
    assert t[..|stem|] == stem;
    TrailingRunIsMarked(t, |stem|, d);
  }

  /** The name of the GIF built from a folder whose first sorted file is
      `firstFile` (main.py:146-149). */
  function GifOutputName(firstFile: string): string {
    StripFrameSuffix(SplitExtRoot(firstFile)) + ".gif"
  }

  /** Naming a frame and then deriving the GIF name from it gives `{base}.gif`,
      whatever the base and the index. */
  lemma GifNameRoundTrip(base: string, i: nat)
    ensures SplitExtRoot(FrameName(base, i)) == base + FrameMarker + ZeroPad(i, IndexWidth)
    ensures GifOutputName(FrameName(base, i)) == base + ".gif"
  {
    var digits := ZeroPad(i, IndexWidth);
    var stem := base + FrameMarker + digits;
    var name := FrameName(base, i);
    assert name == stem + ".png";
    var dot := |stem|;
    assert LastIndexOf(name, '.') == dot by {
      assert name[dot] == '.';
      assert forall k :: dot < k < |name| ==> name[k] != '.';
    }
    assert name[dot - 1] != '.' by {
      assert name[dot - 1] == (if |digits| > 0 then digits[|digits| - 1] else '_');
    }
    assert SplitExtRoot(name) == stem by {
      assert name[..dot] == stem;
    }
    assert stem == stem[..|base|] + FrameMarker + digits;
    TrailingRunIsMarked(stem, |base|, digits);
    assert FrameSuffixStem(stem) == Some(base);
  }

  /** Within three digits, the zero-padded names sort in index order. */
  lemma FrameNameOrder(base: string, i: nat, j: nat)
    requires i < j < 1000
    ensures LexLess(FrameName(base, i), FrameName(base, j))
  {
    var pi, pj := ZeroPad(i, IndexWidth), ZeroPad(j, IndexWidth);
    DecimalLength(i, 3);
    DecimalLength(j, 3);
    SameWidthDigitsOrder(pi, pj);
    LexLessSameLengthExtend(pi, pj, ".png", ".png");
    LexLessCommonPrefix(base + FrameMarker, pi + ".png", pj + ".png");
    assert FrameName(base, i) == (base + FrameMarker) + (pi + ".png");
    assert FrameName(base, j) == (base + FrameMarker) + (pj + ".png");
  }

  /** Frame 0 sorts before every other frame, however many digits its index
      takes: "000" against a longer index compares '0' with a non-zero digit. */
  lemma FrameZeroFirst(base: string, j: nat)
    requires j > 0
    ensures LexLess(FrameName(base, 0), FrameName(base, j))
  {
    if j < 1000 {
      FrameNameOrder(base, 0, j);
    } else {
      var d := NatToDecimal(j);
      assert Pow10(3) == 1000;
      DecimalLength(j, 3);
      assert ZeroPad(j, IndexWidth) == Zeros(0) + d == d;
      assert NatToDecimal(0) == "0";
      assert ZeroPad(0, IndexWidth) == "000";
      assert IsDigit(d[0]) && d[0] != '0';
      assert LexLess("000.png", d + ".png");
      LexLessCommonPrefix(base + FrameMarker, "000.png", d + ".png");
      assert FrameName(base, 0) == (base + FrameMarker) + "000.png";
      assert FrameName(base, j) == (base + FrameMarker) + (d + ".png");
    }
  }

  /** The sorted listing of the frame folder is in index order exactly when there
      are at most 1000 frames: frame 1000 sorts before frame 101. */
  lemma FrameNamesIncreasing(base: string, count: nat)
    ensures StrictlyIncreasing(FrameNames(base, count)) <==> count <= 1000
  {
    var names := FrameNames(base, count);
    if count <= 1000 {
      forall i, j | 0 <= i < j < count
        ensures LexLess(names[i], names[j])
      {
        FrameNameOrder(base, i, j);
      }
    } else {
      ThousandBeforeHundredOne(base);
      LexLessAsymmetric(names[1000], names[101]);
    }
  }

  /** The same holds for `sorted`'s weaker order: beyond 1000 frames the index
      order is not a sorted order at all. */
  lemma FrameNamesSorted(base: string, count: nat)
    ensures Sorted(FrameNames(base, count)) <==> count <= 1000
  {
    FrameNamesIncreasing(base, count);
    if count > 1000 {
      var names := FrameNames(base, count);
      ThousandBeforeHundredOne(base);
      LexLessAsymmetric(names[1000], names[101]);
      LexLessIrreflexive(names[1000]);
      assert !LexLe(names[101], names[1000]);
    }
  }

  /** "frame_1000" and "frame_101" agree up to "frame_10", then '0' < '1'. */
  lemma ThousandBeforeHundredOne(base: string)
    ensures LexLess(FrameName(base, 1000), FrameName(base, 101))
  {
    assert NatToDecimal(1) == "1";
    assert NatToDecimal(10) == "10";
    assert NatToDecimal(100) == "100";
    assert NatToDecimal(1000) == "1000";
    assert NatToDecimal(101) == "101";
    assert ZeroPad(1000, IndexWidth) == "1000";
    assert ZeroPad(101, IndexWidth) == "101";
    var p := base + FrameMarker;
    assert FrameName(base, 1000) == p + "1000.png";
    assert FrameName(base, 101) == p + "101.png";
    assert LexLess("1000.png", "101.png");
    LexLessCommonPrefix(p, "1000.png", "101.png");
  }
  /** Whatever the order, the least of the frame names is frame 0's: its index
      digits are all '0'.  */
  lemma FirstSortedFrame(base: string, count: nat, sorted: seq<string>)
    requires count > 0 && Sorted(sorted) && multiset(sorted) == multiset(FrameNames(base, count))
    ensures |sorted| == count && sorted[0] == FrameName(base, 0)
  {
    var names := FrameNames(base, count);
    assert |sorted| == |multiset(names)| == count;
    assert sorted[0] in multiset(names);
    var j :| 0 <= j < count && names[j] == sorted[0];
    assert names[0] in multiset(sorted);
    var m :| 0 <= m < count && sorted[m] == names[0];
    if m > 0 {
      HeadIsLeast(sorted, m);
    }
    if j > 0 {
      FrameZeroFirst(base, j);
      LexLessAsymmetric(names[0], names[j]);
    } else {
      LexLessIrreflexive(names[0]);
    }
  }
}

=== FILE: frame_slicer.dfy ===
/** `createFrameFromImage` (main.py:101-124): cut a tall screenshot into
    `frameNumber + 1` viewport-high crops whose tops advance evenly from the top
    of the image to its bottom. Pixels are not modelled; a frame is its file
    name and its crop box. */
module FrameSlicer {
  import opened Common
  import opened FrameNaming

  /** A PIL crop box `(left, upper, right, lower)`. */
  datatype Box = Box(left: int, top: int, right: int, bottom: int) {
    function Width(): int { right - left }
    function Height(): int { bottom - top }
  }

  /** One saved crop: the file it is written to and the region it shows. */
  datatype Frame = Frame(name: string, box: Box)

  /** `start_height` of frame `i` (main.py:117): `i` steps of
      `(imageHeight - viewportHeight) / frameNumber`, rounded toward zero. */
  function StartHeight(i: nat, imageHeight: int, viewportHeight: int, frameNumber: int): int
    requires frameNumber > 0
  {
    TruncDiv(i * (imageHeight - viewportHeight), frameNumber)
  }

  /** The crop box of frame `i` (main.py:117-120). */
  function CropBox(i: nat, imageWidth: int, imageHeight: int, viewportHeight: int, frameNumber: int): (b: Box)
    requires frameNumber > 0
    ensures b.left == 0 && b.Width() == imageWidth
    ensures b.Height() == viewportHeight
  {
    var start := StartHeight(i, imageHeight, viewportHeight, frameNumber);
    Box(0, start, imageWidth, start + viewportHeight)
  }

  /** Frame `i`: its file name and its crop box (main.py:117-123). */
  function SliceFrame(base: string, i: nat, imageWidth: int, imageHeight: int,
                      viewportHeight: int, frameNumber: int): (f: Frame)
    requires frameNumber > 0
    ensures f.name == FrameName(base, i)
    ensures f.box.left == 0 && f.box.right == imageWidth
    ensures f.box.top == StartHeight(i, imageHeight, viewportHeight, frameNumber)
    ensures f.box.Height() == viewportHeight
  {
    Frame(FrameName(base, i), CropBox(i, imageWidth, imageHeight, viewportHeight, frameNumber))
  }

  /** Frames `0 .. frameNumber` of an image whose frames are stamped `base`. */
  function SliceFrames(base: string, imageWidth: int, imageHeight: int,
                       frameNumber: int, viewportHeight: int): (frames: seq<Frame>)
    requires frameNumber > 0
    ensures |frames| == frameNumber + 1
    ensures forall i :: 0 <= i < |frames| ==>
      frames[i] == SliceFrame(base, i, imageWidth, imageHeight, viewportHeight, frameNumber)
  {
    seq(frameNumber + 1, i requires 0 <= i =>
      SliceFrame(base, i, imageWidth, imageHeight, viewportHeight, frameNumber))
  }

  /** The frames `createFrameFromImage` saves. `range(frameNumber + 1)` is empty
      for a negative count, so nothing is saved and nothing fails; a zero count
      divides by zero on the first frame, before anything is saved. */
  function CreateFrames(imagePath: string, imageWidth: int, imageHeight: int,
                        frameNumber: int, viewportHeight: int): (r: Result<seq<Frame>>)
    ensures r.Err? <==> frameNumber == 0
    ensures r.Err? ==> r.error == ZeroDivision
    ensures frameNumber < 0 ==> r == Ok([])
    ensures frameNumber > 0 ==> && r.Ok? && |r.value| == frameNumber + 1
                                && forall i :: 0 <= i < |r.value| ==>
                                     r.value[i] == SliceFrame(ImageName(imagePath), i, imageWidth,
                                                              imageHeight, viewportHeight, frameNumber)
  {
    if frameNumber == 0 then Err(ZeroDivision)
    else if frameNumber < 0 then Ok([])
    else Ok(SliceFrames(ImageName(imagePath), imageWidth, imageHeight, frameNumber, viewportHeight))
  }

  /** The first frame starts at the top of the image and the last one ends at
      its bottom, exactly, whatever the rounding does in between. */
  lemma SliceEndpoints(imageHeight: int, viewportHeight: int, frameNumber: int)
    requires frameNumber > 0
    ensures StartHeight(0, imageHeight, viewportHeight, frameNumber) == 0
    ensures StartHeight(frameNumber, imageHeight, viewportHeight, frameNumber) == imageHeight - viewportHeight
    ensures StartHeight(frameNumber, imageHeight, viewportHeight, frameNumber) + viewportHeight == imageHeight
  {
    var d := imageHeight - viewportHeight;
    assert frameNumber * d == d * frameNumber;
    TruncDivExact(d, frameNumber);
  }

  /** When the viewport fits in the image, tops never move up. */
  lemma SliceMonotone(i: nat, j: nat, imageHeight: int, viewportHeight: int, frameNumber: int)
    requires frameNumber > 0 && viewportHeight <= imageHeight && i <= j
    ensures StartHeight(i, imageHeight, viewportHeight, frameNumber)
         <= StartHeight(j, imageHeight, viewportHeight, frameNumber)
  {
    var d := imageHeight - viewportHeight;
    assert i * d <= j * d by {
      if d > 0 {
        MulMonotone(i, j, d);
      }
    }
    TruncDivMonotone(i * d, j * d, frameNumber);
  }

  /** When the viewport fits in the image, every crop lies inside it. */
  lemma SliceWithinImage(i: nat, imageHeight: int, viewportHeight: int, frameNumber: int)
    requires frameNumber > 0 && viewportHeight <= imageHeight && i <= frameNumber
    ensures 0 <= StartHeight(i, imageHeight, viewportHeight, frameNumber)
    ensures StartHeight(i, imageHeight, viewportHeight, frameNumber) + viewportHeight <= imageHeight
  {
    SliceEndpoints(imageHeight, viewportHeight, frameNumber);
    SliceMonotone(0, i, imageHeight, viewportHeight, frameNumber);
    SliceMonotone(i, frameNumber, imageHeight, viewportHeight, frameNumber);
  }

  /** Whatever the sign of `imageHeight - viewportHeight`, the step between
      consecutive tops, times `frameNumber`, is less than `frameNumber` away
      from that difference: both tops are rounded toward zero, on the same side. */
  lemma StepBracket(i: nat, imageHeight: int, viewportHeight: int, frameNumber: int)
    requires frameNumber > 0
    ensures var step := StartHeight(i + 1, imageHeight, viewportHeight, frameNumber)
                      - StartHeight(i, imageHeight, viewportHeight, frameNumber);
            var d := imageHeight - viewportHeight;
            d - frameNumber < step * frameNumber < d + frameNumber
  {
    var d := imageHeight - viewportHeight;
    assert (i + 1) * d == i * d + d;
    if d > 0 {
      MulMonotone(0, i, d);
    } else if d < 0 {
      MulMonotone(0, i, -d);
      assert i * (-d) == -(i * d);
    }
    TruncDivStep(i * d, d, frameNumber);
  }

  /** Even progress: consecutive tops differ by `(imageHeight - viewportHeight)
      / frameNumber` rounded down or up, whether or not the viewport fits. */
  lemma SliceStep(i: nat, imageHeight: int, viewportHeight: int, frameNumber: int)
    requires frameNumber > 0
    ensures var step := StartHeight(i + 1, imageHeight, viewportHeight, frameNumber)
                      - StartHeight(i, imageHeight, viewportHeight, frameNumber);
            var q := (imageHeight - viewportHeight) / frameNumber;
            step == q || step == q + 1
  {
    var n := frameNumber;
    StepBracket(i, imageHeight, viewportHeight, n);
    FloorBracketAny(imageHeight - viewportHeight, n);
    StepNearQuotient(StartHeight(i + 1, imageHeight, viewportHeight, n) - StartHeight(i, imageHeight, viewportHeight, n),
                     imageHeight - viewportHeight, n);
  }

  /** A multiple of `n` less than `n` away from `d` is `d / n` or one more. */
  lemma StepNearQuotient(step: int, d: int, n: int)
    requires n > 0 && d - n < step * n < d + n
    requires (d / n) * n <= d < (d / n) * n + n
    ensures step == d / n || step == d / n + 1
  {
    var q := d / n;
    assert (q - 1) * n == q * n - n;
    assert (q + 2) * n == q * n + n + n;
    MulCancelLess(q - 1, step, n);
    MulCancelLess(step, q + 2, n);
  }

  /** Row `y` of the image appears in some frame. */
  predicate RowShown(y: int, imageHeight: int, viewportHeight: int, frameNumber: int)
    requires frameNumber > 0
  {
    exists i: nat :: i <= frameNumber &&
      StartHeight(i, imageHeight, viewportHeight, frameNumber) <= y
      < StartHeight(i, imageHeight, viewportHeight, frameNumber) + viewportHeight
  }

  /** Frames `0 .. i` together show every row above the bottom of frame `i`,
      provided no step is taller than the viewport. */
  lemma {:induction false} RowsShownUpTo(i: nat, y: int, imageHeight: int, viewportHeight: int, frameNumber: int)
    requires frameNumber > 0 && 0 < viewportHeight <= imageHeight
    requires imageHeight - viewportHeight <= frameNumber * viewportHeight
    requires i <= frameNumber
    requires 0 <= y < StartHeight(i, imageHeight, viewportHeight, frameNumber) + viewportHeight
    ensures RowShown(y, imageHeight, viewportHeight, frameNumber)
  {
    var top := StartHeight(i, imageHeight, viewportHeight, frameNumber);
    if top <= y {
      assert i <= frameNumber && top <= y < top + viewportHeight;
    } else {
      assert i > 0 by {
        SliceEndpoints(imageHeight, viewportHeight, frameNumber);
      }
      StepAtMostViewport(i - 1, imageHeight, viewportHeight, frameNumber);
      SliceMonotone(i - 1, i, imageHeight, viewportHeight, frameNumber);
      RowsShownUpTo(i - 1, y, imageHeight, viewportHeight, frameNumber);
    }
  }

  /** With `imageHeight - viewportHeight <= frameNumber * viewportHeight` no
      step is taller than the viewport, whether or not the viewport fits. */
  lemma StepAtMostViewport(i: nat, imageHeight: int, viewportHeight: int, frameNumber: int)
    requires frameNumber > 0
    requires imageHeight - viewportHeight <= frameNumber * viewportHeight
    ensures StartHeight(i + 1, imageHeight, viewportHeight, frameNumber)
         <= StartHeight(i, imageHeight, viewportHeight, frameNumber) + viewportHeight
  {
    var n := frameNumber;
    var step := StartHeight(i + 1, imageHeight, viewportHeight, n) - StartHeight(i, imageHeight, viewportHeight, n);
    StepBracket(i, imageHeight, viewportHeight, n);
    assert (viewportHeight + 1) * n == n * viewportHeight + n;
    MulCancelLess(step, viewportHeight + 1, n);
  }

  /** Tops climb at most one viewport per step when the steps are small, so
      `frameNumber` steps reach at most `frameNumber` viewports down. */
  lemma {:induction false} TopsBoundedBySteps(i: nat, imageHeight: int, viewportHeight: int, frameNumber: int)
    requires frameNumber > 0 && 0 < viewportHeight <= imageHeight
    requires forall k: nat :: k < i ==>
      StartHeight(k + 1, imageHeight, viewportHeight, frameNumber)
      <= StartHeight(k, imageHeight, viewportHeight, frameNumber) + viewportHeight
    ensures StartHeight(i, imageHeight, viewportHeight, frameNumber) <= i * viewportHeight
  {
    if i == 0 {
      SliceEndpoints(imageHeight, viewportHeight, frameNumber);
    } else {
      TopsBoundedBySteps(i - 1, imageHeight, viewportHeight, frameNumber);
      assert i * viewportHeight == (i - 1) * viewportHeight + viewportHeight;
    }
  }

  /** Every row of the screenshot appears in at least one frame exactly when
      `frameNumber` viewports reach the bottom: `imageHeight - viewportHeight <=
      frameNumber * viewportHeight`. With fewer frames some band of rows is
      skipped by the animation; a viewport taller than the image shows every
      row in frame 0; an empty viewport shows no row. */
  lemma SliceCoverage(imageHeight: int, viewportHeight: int, frameNumber: int)
    requires frameNumber > 0 && (0 < imageHeight || 0 <= viewportHeight)
    ensures (forall y :: 0 <= y < imageHeight ==> RowShown(y, imageHeight, viewportHeight, frameNumber))
        <==> imageHeight - viewportHeight <= frameNumber * viewportHeight
  {
    SliceEndpoints(imageHeight, viewportHeight, frameNumber);
    if viewportHeight <= 0 {
      if 0 < imageHeight {
        assert !RowShown(0, imageHeight, viewportHeight, frameNumber);
        MulMonotone(viewportHeight, 0, frameNumber);
      }
    } else if imageHeight < viewportHeight {
      forall y | 0 <= y < imageHeight
        ensures RowShown(y, imageHeight, viewportHeight, frameNumber)
      {
        assert StartHeight(0, imageHeight, viewportHeight, frameNumber) <= y
             < StartHeight(0, imageHeight, viewportHeight, frameNumber) + viewportHeight;
      }
      MulMonotone(0, viewportHeight, frameNumber);
    } else {
      FittingViewportCoverage(imageHeight, viewportHeight, frameNumber);
    }
  }

  /** The equivalence of `SliceCoverage` when the viewport fits in the image. */
  lemma FittingViewportCoverage(imageHeight: int, viewportHeight: int, frameNumber: int)
    requires frameNumber > 0 && 0 < viewportHeight <= imageHeight
    ensures (forall y :: 0 <= y < imageHeight ==> RowShown(y, imageHeight, viewportHeight, frameNumber))
        <==> imageHeight - viewportHeight <= frameNumber * viewportHeight
  {
    SliceEndpoints(imageHeight, viewportHeight, frameNumber);
    if imageHeight - viewportHeight <= frameNumber * viewportHeight {
      forall y | 0 <= y < imageHeight
        ensures RowShown(y, imageHeight, viewportHeight, frameNumber)
      {
        RowsShownUpTo(frameNumber, y, imageHeight, viewportHeight, frameNumber);
      }
    } else {
      var k := SkippedStep(imageHeight, viewportHeight, frameNumber);
      var y := StartHeight(k, imageHeight, viewportHeight, frameNumber) + viewportHeight;
      RowSkipped(k, imageHeight, viewportHeight, frameNumber);
      SliceMonotone(k + 1, frameNumber, imageHeight, viewportHeight, frameNumber);
      SliceWithinImage(k, imageHeight, viewportHeight, frameNumber);
      assert 0 <= y < imageHeight && !RowShown(y, imageHeight, viewportHeight, frameNumber);
    }
  }

  /** Too few frames leave some step taller than the viewport. */
  lemma SkippedStep(imageHeight: int, viewportHeight: int, frameNumber: int) returns (k: nat)
    requires frameNumber > 0 && 0 < viewportHeight <= imageHeight
    requires imageHeight - viewportHeight > frameNumber * viewportHeight
    ensures k < frameNumber
    ensures StartHeight(k + 1, imageHeight, viewportHeight, frameNumber)
          > StartHeight(k, imageHeight, viewportHeight, frameNumber) + viewportHeight
  {
    if forall k: nat :: k < frameNumber ==>
      StartHeight(k + 1, imageHeight, viewportHeight, frameNumber)
      <= StartHeight(k, imageHeight, viewportHeight, frameNumber) + viewportHeight
    {
      TopsBoundedBySteps(frameNumber, imageHeight, viewportHeight, frameNumber);
      SliceEndpoints(imageHeight, viewportHeight, frameNumber);
      assert false;
    }
    k :| k < frameNumber &&
      StartHeight(k + 1, imageHeight, viewportHeight, frameNumber)
      > StartHeight(k, imageHeight, viewportHeight, frameNumber) + viewportHeight;
  }

  /** The row just below frame `k` is in no frame when the next top jumps past it. */
  lemma RowSkipped(k: nat, imageHeight: int, viewportHeight: int, frameNumber: int)
    requires frameNumber > 0 && 0 < viewportHeight <= imageHeight && k < frameNumber
    requires StartHeight(k + 1, imageHeight, viewportHeight, frameNumber)
           > StartHeight(k, imageHeight, viewportHeight, frameNumber) + viewportHeight
    ensures !RowShown(StartHeight(k, imageHeight, viewportHeight, frameNumber) + viewportHeight,
                      imageHeight, viewportHeight, frameNumber)
  {
    var y := StartHeight(k, imageHeight, viewportHeight, frameNumber) + viewportHeight;
    forall i: nat | i <= frameNumber
      ensures !(StartHeight(i, imageHeight, viewportHeight, frameNumber) <= y
                < StartHeight(i, imageHeight, viewportHeight, frameNumber) + viewportHeight)
    {
      if i <= k {
        SliceMonotone(i, k, imageHeight, viewportHeight, frameNumber);
      } else {
        SliceMonotone(k + 1, i, imageHeight, viewportHeight, frameNumber);
      }
    }
  }
}

=== FILE: gif_assembler.dfy ===
/** `createGifFromFrames` (main.py:126-165): list the frame folder, sort it, and
    save the frames as one looping GIF named after the first file, with the
    requested total duration spread evenly over the frames. Pixels are not
    modelled; the GIF's frames are the files they were read from. */
module GifAssembler {
  import opened Common
  import opened Sorting
  import opened FrameNaming

  /** What is handed to Pillow's `save`: the output file name, the frames in
      playing order, the delay of every frame in milliseconds and the loop count. */
  datatype Gif = Gif(name: string, frames: seq<string>, delayMs: int, loop: nat)

  const MinDelayMs: int := 1

  /** `loop=0`: the GIF repeats forever. */
  const LoopForever: nat := 0

  /** `per_frame_ms` (main.py:153): the total of `seconds` spread over `count`
      frames, in whole milliseconds, never below 1 ms. With at least a
      millisecond per frame, the frames together play for at most the
      requested time and fall short of it by less than one millisecond per frame. */
  function FrameDelay(seconds: int, count: nat): (ms: int)
    ensures ms >= MinDelayMs
    ensures var frames := Max(1, count);
      seconds * 1000 >= frames ==> ms * frames <= seconds * 1000 < (ms + 1) * frames
    ensures seconds * 1000 < Max(1, count) ==> ms == MinDelayMs
  {
    var frames := Max(1, count);
    var ms := TruncDiv(seconds * 1000, frames);
    TruncDivPositive(seconds * 1000, frames);
    Max(MinDelayMs, ms)
  }

  /** Two seconds over five frames is 400 ms a frame; zero seconds clamps to 1 ms. */
  lemma FrameDelayExamples()
    ensures FrameDelay(2, 5) == 400
    ensures FrameDelay(0, 10) == 1
    ensures FrameDelay(1, 5000) == 1
    ensures FrameDelay(3, 0) == 3000
  {
  }

  /** `createGifFromFrames` on a folder listing `frameFiles`, in whatever order
      the directory yields them. */
  function CreateGif(frameFiles: seq<string>, seconds: int): (r: Result<Gif>)
    ensures r.Err? <==> |frameFiles| == 0
    ensures r.Err? ==> r.error == NoFrameFiles
    ensures r.Ok? ==> && Sorted(r.value.frames)
                      && multiset(r.value.frames) == multiset(frameFiles)
                      && r.value.name == GifOutputName(r.value.frames[0])
                      && r.value.delayMs == FrameDelay(seconds, |frameFiles|)
                      && r.value.loop == LoopForever
  {
    var sorted := SortNames(frameFiles);
    if |frameFiles| == 0 then Err(NoFrameFiles)
    else
      assert |sorted| == |multiset(sorted)| == |frameFiles|;
      Ok(Gif(GifOutputName(sorted[0]), sorted, FrameDelay(seconds, |frameFiles|), LoopForever))
  }

  /** `os.listdir` may list the folder in any order: the GIF does not depend
      on it, because the sorted listing is the only sorted rearrangement. */
  lemma ListingOrderIrrelevant(listing: seq<string>, other: seq<string>, seconds: int)
    requires multiset(listing) == multiset(other)
    ensures CreateGif(listing, seconds) == CreateGif(other, seconds)
  {
    assert |listing| == |multiset(listing)| == |other|;
    SortedUnique(SortNames(listing), SortNames(other));
  }

  /** Assembling the frames of one slicing run, listed in any order, plays them
      in index order (up to 1000 frames) from a GIF named `{base}.gif`. */
  lemma AssembleSlicedFrames(base: string, count: nat, listing: seq<string>, seconds: int)
    requires 1 <= count <= 1000
    requires multiset(listing) == multiset(FrameNames(base, count))
    ensures CreateGif(listing, seconds)
         == Ok(Gif(base + ".gif", FrameNames(base, count), FrameDelay(seconds, count), LoopForever))
  {
    assert |listing| == |multiset(listing)| == count;
    FrameNamesIncreasing(base, count);
    SortRestoresIncreasing(FrameNames(base, count), listing);
    GifNameRoundTrip(base, 0);
  }

  /** At any frame count, the GIF of one slicing run is named `{base}.gif` after
      frame 0, which sorts first; its frames play in index order exactly when
      there are at most 1000 of them. */
  lemma SlicedGif(base: string, count: nat, listing: seq<string>, seconds: int)
    requires count >= 1
    requires multiset(listing) == multiset(FrameNames(base, count))
    ensures var r := CreateGif(listing, seconds);
            && r.Ok?
            && r.value.name == base + ".gif"
            && r.value.delayMs == FrameDelay(seconds, count)
            && r.value.loop == LoopForever
            && (r.value.frames == FrameNames(base, count) <==> count <= 1000)
  {
    var gif := CreateGif(listing, seconds).value;
    assert |listing| == |multiset(listing)| == count;
    FirstSortedFrame(base, count, gif.frames);
    GifNameRoundTrip(base, 0);
    FrameNamesSorted(base, count);
    if count <= 1000 {
      AssembleSlicedFrames(base, count, listing, seconds);
    }
  }
}

=== FILE: overlay.dfy ===
/** `addOverlayToGif` (main.py:182-253): for every frame of the GIF, build the
    perspective system that fits the frame into the device screen, then save the
    composited frames as a new looping GIF. The warp, the pastes and the
    encoder are Pillow calls on pixels and are not modelled; each output frame
    is represented by the system its warp is computed from. */
module Overlay {
  import opened Common
  import opened Perspective

  /** What is handed to Pillow's `save`: output name, one perspective system per
      frame in frame order, the delay of every frame and the loop count. */
  datatype OverlayGif = OverlayGif(name: string, systems: seq<LinearSystem>, delayMs: int, loop: nat)

  /** `gif.info.get('duration', 100)` falls back to 100 ms (main.py:243). */
  const DefaultDelayMs: int := 100

  const OverlaySuffix: string := "_with_overlay.gif"

  /** `f"{gif_path[:-4]}_with_overlay.gif"` (main.py:246). Python's `[:-4]`
      leaves nothing of a path shorter than four characters. */
  function OverlayOutputName(gifPath: string): (r: string)
    ensures |r| == |OverlaySuffix| + (if |gifPath| >= 4 then |gifPath| - 4 else 0)
    ensures r[|r| - |OverlaySuffix|..] == OverlaySuffix
    ensures r[..|r| - |OverlaySuffix|] <= gifPath
  {
    (if |gifPath| >= 4 then gifPath[..|gifPath| - 4] else "") + OverlaySuffix
  }

  /** Replacing the ".gif" extension: `{base}.gif` becomes `{base}_with_overlay.gif`. */
  lemma OverlayNameOfGif(base: string)
    ensures OverlayOutputName(base + ".gif") == base + OverlaySuffix
  {
    assert (base + ".gif")[..|base|] == base;
  }

  /** `addOverlayToGif` on a GIF whose frames have the given sizes, with the
      configured destination quad and the duration Pillow read from the file, if
      any. A GIF without frames is reported and nothing is written (the function
      returns without raising). */
  function AddOverlay(gifPath: string, frameSizes: seq<(int, int)>, quad: seq<(real, real)>,
                      recordedDelay: Option<int>): (r: Option<OverlayGif>)
    ensures r.None? <==> |frameSizes| == 0
    ensures r.Some? ==>
      && r.value.name == OverlayOutputName(gifPath)
      && |r.value.systems| == |frameSizes|
      && (forall i :: 0 <= i < |frameSizes| ==>
            r.value.systems[i] == OverlaySystem(quad, frameSizes[i].0, frameSizes[i].1))
      && r.value.delayMs == (if recordedDelay.Some? then recordedDelay.value else DefaultDelayMs)
      && r.value.loop == 0
  {
    if |frameSizes| == 0 then None
    else
      var systems := seq(|frameSizes|, i requires 0 <= i < |frameSizes| =>
        OverlaySystem(quad, frameSizes[i].0, frameSizes[i].1));
      var delay := match recordedDelay
        case Some(ms) => ms
        case None => DefaultDelayMs;
      Some(OverlayGif(OverlayOutputName(gifPath), systems, delay, 0))
  }

  /** A GIF whose frames all have one size gets the same system for every
      frame, built from that size. */
  lemma UniformFrames(gifPath: string, fw: int, fh: int, count: nat,
                      quad: seq<(real, real)>, recordedDelay: Option<int>)
    requires count > 0
    ensures var r := AddOverlay(gifPath, seq(count, _ => (fw, fh)), quad, recordedDelay);
            && r.Some?
            && r.value.name == OverlayOutputName(gifPath)
            && |r.value.systems| == count
            && forall i :: 0 <= i < count ==> r.value.systems[i] == OverlaySystem(quad, fw, fh)
  {
    var sizes := seq(count, _ => (fw, fh));
    assert forall i :: 0 <= i < count ==> sizes[i] == (fw, fh);
  }

  /** For a screen quad that truncates to an axis-aligned rectangle and a frame
      of non-zero size, the system built for the frame has one solution only,
      the corner-fitting `RectangleFit`. So the solver's answer sends every
      screen corner to the matching frame corner despite the swapped terms. */
  lemma RectangleOverlaySolution(quad: seq<(real, real)>, fw: int, fh: int, c: Coeffs)
    requires IsRectangle(TruncatePoints(quad)) && fw != 0 && fh != 0
    requires Solves(OverlaySystem(quad, fw, fh), c)
    ensures c == RectangleFit(TruncatePoints(quad), fw, fh)
    ensures forall k :: 0 <= k < 4 ==> SendsTo(c, TruncatePoints(quad)[k], SourceCorners(fw, fh)[k])
  {
    RectangleSolutionUnique(TruncatePoints(quad), fw, fh, c);
    RectangleSystemSendsCorners(TruncatePoints(quad), fw, fh);
  }

  /** The screen quads of the laptop and phone pictures (main.py:260, 280). */
  const MacScreen: seq<(real, real)> := [(110.0, 120.0), (744.0, 120.0), (110.0, 527.0), (744.0, 527.0)]
  const IphoneScreen: seq<(real, real)> := [(365.0, 30.0), (714.0, 30.0), (365.0, 738.0), (714.0, 738.0)]

  /** Both device presets are axis-aligned rectangles, so the system as written
      is solved by a transform that sends each preset corner to the matching
      frame corner, for any frame size. */
  lemma PresetsFitExactly(fw: int, fh: int)
    ensures IsRectangle(TruncatePoints(MacScreen)) && IsRectangle(TruncatePoints(IphoneScreen))
    ensures exists c :: Solves(OverlaySystem(MacScreen, fw, fh), c)
                     && forall k :: 0 <= k < 4 ==> SendsTo(c, TruncatePoints(MacScreen)[k], SourceCorners(fw, fh)[k])
    ensures exists c :: Solves(OverlaySystem(IphoneScreen, fw, fh), c)
                     && forall k :: 0 <= k < 4 ==> SendsTo(c, TruncatePoints(IphoneScreen)[k], SourceCorners(fw, fh)[k])
  {
    var mac, iphone := TruncatePoints(MacScreen), TruncatePoints(IphoneScreen);
    assert mac == [Point(110, 120), Point(744, 120), Point(110, 527), Point(744, 527)];
    assert iphone == [Point(365, 30), Point(714, 30), Point(365, 738), Point(714, 738)];
    RectangleSystemSendsCorners(mac, fw, fh);
    RectangleSystemSendsCorners(iphone, fw, fh);
    var cm, ci := RectangleFit(mac, fw, fh), RectangleFit(iphone, fw, fh);
    assert Solves(OverlaySystem(MacScreen, fw, fh), cm);
    assert Solves(OverlaySystem(IphoneScreen, fw, fh), ci);
  }
}

=== FILE: perspective.dfy ===
/** The linear system `find_coeffs` hands to `np.linalg.solve` (main.py:191-205)
    for the perspective warp in `addOverlayToGif` (main.py:220-225). Every entry
    is an integer, which a float holds exactly, so the system is modelled exactly
    over the reals; the floating-point solve is not modelled. Coefficients `(a, b, c, d, e, f, g, h)` describe Pillow's
    PERSPECTIVE transform, which samples the input at
    `((a x + b y + c) / (g x + h y + 1), (d x + e y + f) / (g x + h y + 1))`
    for each output pixel `(x, y)`. */
module Perspective {

  datatype Point = Point(x: int, y: int)

  /** The eight coefficients of a perspective transform. */
  datatype Coeffs = Coeffs(a: real, b: real, c: real, d: real, e: real, f: real, g: real, h: real)

  /** `A` and `B` of `A x = B`, both converted with `dtype=float` (main.py:203-204). */
  datatype LinearSystem = LinearSystem(rows: seq<seq<real>>, rhs: seq<real>)

  /** Python's `int(v)` on a float: the integer part, rounded toward zero. */
  function TruncToInt(v: real): (n: int)
    ensures 0.0 <= v ==> 0 <= n && n as real <= v < n as real + 1.0
    ensures v <= 0.0 ==> n <= 0 && n as real - 1.0 < v <= n as real
  {
    if v >= 0.0 then v.Floor else -((-v).Floor)
  }

  /** `dst = [(int(x), int(y)) for (x, y) in gif_size]` (main.py:220). */
  function TruncatePoints(quad: seq<(real, real)>): (pts: seq<Point>)
    ensures |pts| == |quad|
    ensures forall k :: 0 <= k < |quad| ==> pts[k] == Point(TruncToInt(quad[k].0), TruncToInt(quad[k].1))
  {
    seq(|quad|, k requires 0 <= k < |quad| => Point(TruncToInt(quad[k].0), TruncToInt(quad[k].1)))
  }

  /** `src`, the corners of a `fw` x `fh` frame in the order top-left, top-right,
      bottom-left, bottom-right (main.py:223). */
  function SourceCorners(fw: int, fh: int): seq<Point> {
    [Point(0, 0), Point(fw, 0), Point(0, fh), Point(fw, fh)]
  }

  /** The first row `find_coeffs` appends for a pair (main.py:200). */
  function XRow(p: Point, q: Point): seq<real> {
    var px, py, qx, qy := p.x as real, p.y as real, q.x as real, q.y as real;
    [px, py, 1.0, 0.0, 0.0, 0.0, -qx * px, -qy * px]
  }

  /** The second row `find_coeffs` appends for a pair (main.py:201). */
  function YRow(p: Point, q: Point): seq<real> {
    var px, py, qx, qy := p.x as real, p.y as real, q.x as real, q.y as real;
    [0.0, 0.0, 0.0, px, py, 1.0, -qx * py, -qy * py]
  }

  function MinLen(m: nat, n: nat): nat {
    if m <= n then m else n
  }

  /** The rows of `A`: two per pair of `zip(pa, pb)`, so a longer list's extra
      points are dropped (main.py:199-201). */
  function CoefficientRows(pa: seq<Point>, pb: seq<Point>): (rows: seq<seq<real>>)
    ensures |rows| == 2 * MinLen(|pa|, |pb|)
    ensures forall j :: 0 <= j < |rows| ==> |rows[j]| == 8
    ensures forall k :: 0 <= k < MinLen(|pa|, |pb|) ==>
      rows[2 * k] == XRow(pa[k], pb[k]) && rows[2 * k + 1] == YRow(pa[k], pb[k])
  {
    if |pa| == 0 || |pb| == 0 then []
    else
      var rest := CoefficientRows(pa[1..], pb[1..]);
      assert forall k :: 1 <= k < MinLen(|pa|, |pb|) ==>
        ([XRow(pa[0], pb[0]), YRow(pa[0], pb[0])] + rest)[2 * k] == rest[2 * (k - 1)];
      [XRow(pa[0], pb[0]), YRow(pa[0], pb[0])] + rest
  }

  /** `B`: the source points flattened, all of them, not only the zipped ones
      (main.py:204). */
  function RightHandSide(pb: seq<Point>): (rhs: seq<real>)
    ensures |rhs| == 2 * |pb|
    ensures forall k :: 0 <= k < |pb| ==> rhs[2 * k] == pb[k].x as real && rhs[2 * k + 1] == pb[k].y as real
  {
    if |pb| == 0 then []
    else
      var rest := RightHandSide(pb[1..]);
      var head := [pb[0].x as real, pb[0].y as real];
      assert forall k :: 1 <= k < |pb| ==> (head + rest)[2 * k] == rest[2 * (k - 1)];
      head + rest
  }

  /** The system `find_coeffs(pa, pb)` solves. */
  function FindCoeffsSystem(pa: seq<Point>, pb: seq<Point>): LinearSystem {
    LinearSystem(CoefficientRows(pa, pb), RightHandSide(pb))
  }

  /** The system built for one GIF frame of size `fw` x `fh` against the
      configured destination quad (main.py:220-225). It is square, 8 x 8, exactly
      when the quad has at least four points; extra points are ignored. */
  function OverlaySystem(quad: seq<(real, real)>, fw: int, fh: int): (sys: LinearSystem)
    ensures sys.rhs == [0.0, 0.0, fw as real, 0.0, 0.0, fh as real, fw as real, fh as real]
    ensures |sys.rows| == |sys.rhs| <==> |quad| >= 4
    ensures |quad| >= 4 ==> forall k :: 0 <= k < 8 ==> |sys.rows[k]| == 8
  {
    var sys := FindCoeffsSystem(TruncatePoints(quad), SourceCorners(fw, fh));
    assert sys.rhs == [0.0, 0.0, fw as real, 0.0, 0.0, fh as real, fw as real, fh as real] by {
      var src := SourceCorners(fw, fh);
      assert sys.rhs[0] == 0.0 && sys.rhs[1] == 0.0 && sys.rhs[2] == fw as real && sys.rhs[3] == 0.0;
      assert sys.rhs[4] == 0.0 && sys.rhs[5] == fh as real && sys.rhs[6] == fw as real && sys.rhs[7] == fh as real;
    }
    sys
  }

  /** One row of `A` times the coefficient vector. */
  function Apply(row: seq<real>, c: Coeffs): real
    requires |row| == 8
  {
    row[0] * c.a + row[1] * c.b + row[2] * c.c + row[3] * c.d
    + row[4] * c.e + row[5] * c.f + row[6] * c.g + row[7] * c.h
  }

  /** Row `k` of `A c = B` holds. */
  predicate RowHolds(sys: LinearSystem, k: int, c: Coeffs)
    requires 0 <= k < |sys.rows| && k < |sys.rhs|
  {
    |sys.rows[k]| == 8 && Apply(sys.rows[k], c) == sys.rhs[k]
  }

  /** `c` solves `A c = B` exactly. */
  predicate Solves(sys: LinearSystem, c: Coeffs) {
    && |sys.rows| == |sys.rhs|
    && forall k :: 0 <= k < |sys.rows| ==> RowHolds(sys, k, c)
  }

  /** The transform samples point `q` of the input at output pixel `p`, stated
      as the linearised equations: both numerators equal `q` times the common
      denominator `g p.x + h p.y + 1`. These also hold when that denominator is
      0, where Pillow samples nothing; "sends" here means the linearised
      equations, which are what a solution of the system guarantees. */
  predicate SendsTo(c: Coeffs, p: Point, q: Point) {
    var w := c.g * p.x as real + c.h * p.y as real + 1.0;
    && c.a * p.x as real + c.b * p.y as real + c.c == q.x as real * w
    && c.d * p.x as real + c.e * p.y as real + c.f == q.y as real * w
  }

  /** The row pair whose solution sends `p` to `q`: the non-linear terms pair
      `q.x` with both coordinates of `p` in the first row and `q.y` in the second. */
  function IntendedXRow(p: Point, q: Point): seq<real> {
    var px, py, qx, qy := p.x as real, p.y as real, q.x as real, q.y as real;
    [px, py, 1.0, 0.0, 0.0, 0.0, -qx * px, -qx * py]
  }

  function IntendedYRow(p: Point, q: Point): seq<real> {
    var px, py, qx, qy := p.x as real, p.y as real, q.x as real, q.y as real;
    [0.0, 0.0, 0.0, px, py, 1.0, -qy * px, -qy * py]
  }

  function IntendedRows(pa: seq<Point>, pb: seq<Point>): (rows: seq<seq<real>>)
    requires |pa| == |pb|
    ensures |rows| == 2 * |pa|
    ensures forall j :: 0 <= j < |rows| ==> |rows[j]| == 8
    ensures forall k :: 0 <= k < |pa| ==>
      rows[2 * k] == IntendedXRow(pa[k], pb[k]) && rows[2 * k + 1] == IntendedYRow(pa[k], pb[k])
  {
    if |pa| == 0 then []
    else
      var rest := IntendedRows(pa[1..], pb[1..]);
      assert forall k :: 1 <= k < |pa| ==>
        ([IntendedXRow(pa[0], pb[0]), IntendedYRow(pa[0], pb[0])] + rest)[2 * k] == rest[2 * (k - 1)];
      [IntendedXRow(pa[0], pb[0]), IntendedYRow(pa[0], pb[0])] + rest
  }

  /** The corrected `find_coeffs` system. */
  function IntendedSystem(pa: seq<Point>, pb: seq<Point>): LinearSystem
    requires |pa| == |pb|
  {
    LinearSystem(IntendedRows(pa, pb), RightHandSide(pb))
  }

  /** A pair of intended rows holds exactly when the transform sends `p` to `q`. */
  lemma IntendedPairSendsTo(p: Point, q: Point, c: Coeffs)
    ensures (Apply(IntendedXRow(p, q), c) == q.x as real && Apply(IntendedYRow(p, q), c) == q.y as real)
        <==> SendsTo(c, p, q)
  {
    IntendedXEquation(p, q, c);
    IntendedYEquation(p, q, c);
  }

  /** The intended x row holds exactly when the x numerator is `q.x` times the denominator. */
  lemma IntendedXEquation(p: Point, q: Point, c: Coeffs)
    ensures Apply(IntendedXRow(p, q), c) == q.x as real
        <==> c.a * p.x as real + c.b * p.y as real + c.c == q.x as real * (c.g * p.x as real + c.h * p.y as real + 1.0)
  {
    var px, py, qx := p.x as real, p.y as real, q.x as real;
    assert Apply(IntendedXRow(p, q), c) == c.a * px + c.b * py + c.c - qx * (c.g * px + c.h * py);
    assert qx * (c.g * px + c.h * py + 1.0) == qx * (c.g * px + c.h * py) + qx;
  }

  /** The intended y row holds exactly when the y numerator is `q.y` times the denominator. */
  lemma IntendedYEquation(p: Point, q: Point, c: Coeffs)
    ensures Apply(IntendedYRow(p, q), c) == q.y as real
        <==> c.d * p.x as real + c.e * p.y as real + c.f == q.y as real * (c.g * p.x as real + c.h * p.y as real + 1.0)
  {
    var px, py, qy := p.x as real, p.y as real, q.y as real;
    assert Apply(IntendedYRow(p, q), c) == c.d * px + c.e * py + c.f - qy * (c.g * px + c.h * py);
    assert qy * (c.g * px + c.h * py + 1.0) == qy * (c.g * px + c.h * py) + qy;
  }

  /** Rows `2k` and `2k + 1` of the corrected system hold exactly when the
      transform sends `pa[k]` to `pb[k]`. */
  lemma IntendedRowPair(pa: seq<Point>, pb: seq<Point>, k: int, c: Coeffs)
    requires |pa| == |pb| && 0 <= k < |pa|
    ensures var sys := IntendedSystem(pa, pb);
            (RowHolds(sys, 2 * k, c) && RowHolds(sys, 2 * k + 1, c)) <==> SendsTo(c, pa[k], pb[k])
  {
    IntendedPairSendsTo(pa[k], pb[k], c);
  }

  /** The corrected system is solved exactly by the transforms that send every
      destination point to its source point. */
  lemma IntendedSystemSendsCorners(pa: seq<Point>, pb: seq<Point>, c: Coeffs)
    requires |pa| == |pb|
    ensures Solves(IntendedSystem(pa, pb), c) <==> forall k :: 0 <= k < |pa| ==> SendsTo(c, pa[k], pb[k])
  {
    var sys := IntendedSystem(pa, pb);
    if Solves(sys, c) {
      forall k | 0 <= k < |pa|
        ensures SendsTo(c, pa[k], pb[k])
      {
        IntendedRowPair(pa, pb, k, c);
      }
    }
    if forall k :: 0 <= k < |pa| ==> SendsTo(c, pa[k], pb[k]) {
      forall j | 0 <= j < |sys.rows|
        ensures RowHolds(sys, j, c)
      {
        IntendedRowPair(pa, pb, j / 2, c);
      }
    }
  }

  /** With `g = h = 0` a written row and the matching intended row agree. */
  lemma AffineRowsAgree(pa: seq<Point>, pb: seq<Point>, j: int, c: Coeffs)
    requires |pa| == |pb| && 0 <= j < 2 * |pa| && c.g == 0.0 && c.h == 0.0
    ensures RowHolds(FindCoeffsSystem(pa, pb), j, c) <==> RowHolds(IntendedSystem(pa, pb), j, c)
  {
    var k := j / 2;
    var p, q := pa[k], pb[k];
    if j % 2 == 0 {
      assert Apply(XRow(p, q), c) == Apply(IntendedXRow(p, q), c);
    } else {
      assert Apply(YRow(p, q), c) == Apply(IntendedYRow(p, q), c);
    }
  }

  /** When the transform is affine (`g = h = 0`) the swapped terms vanish, so
      the written rows and the intended rows have the same solutions. */
  lemma AffineSolutionsAgree(pa: seq<Point>, pb: seq<Point>, c: Coeffs)
    requires |pa| == |pb| && c.g == 0.0 && c.h == 0.0
    ensures Solves(FindCoeffsSystem(pa, pb), c) <==> Solves(IntendedSystem(pa, pb), c)
  {
    forall j | 0 <= j < 2 * |pa|
      ensures RowHolds(FindCoeffsSystem(pa, pb), j, c) <==> RowHolds(IntendedSystem(pa, pb), j, c)
    {
      AffineRowsAgree(pa, pb, j, c);
    }
  }

  /** The two equations the rows as written impose on a pair: the non-linear
      terms pair `q.x` and `q.y` with `p.x` in the first equation and with `p.y`
      in the second. */
  predicate WrittenEquations(c: Coeffs, p: Point, q: Point) {
    var px, py, qx, qy := p.x as real, p.y as real, q.x as real, q.y as real;
    && c.a * px + c.b * py + c.c - qx * px * c.g - qy * px * c.h == qx
    && c.d * px + c.e * py + c.f - qx * py * c.g - qy * py * c.h == qy
  }

  /** A pair of written rows holds exactly when its two equations do. */
  lemma WrittenPair(p: Point, q: Point, c: Coeffs)
    ensures (Apply(XRow(p, q), c) == q.x as real && Apply(YRow(p, q), c) == q.y as real)
        <==> WrittenEquations(c, p, q)
  {
    var px, py, qx, qy := p.x as real, p.y as real, q.x as real, q.y as real;
    assert Apply(XRow(p, q), c) == c.a * px + c.b * py + c.c - qx * px * c.g - qy * px * c.h;
    assert Apply(YRow(p, q), c) == c.d * px + c.e * py + c.f - qx * py * c.g - qy * py * c.h;
  }

  lemma WrittenRowPair(pa: seq<Point>, pb: seq<Point>, k: int, c: Coeffs)
    requires |pa| == |pb| && 0 <= k < |pa|
    ensures var sys := FindCoeffsSystem(pa, pb);
            (RowHolds(sys, 2 * k, c) && RowHolds(sys, 2 * k + 1, c)) <==> WrittenEquations(c, pa[k], pb[k])
  {
    WrittenPair(pa[k], pb[k], c);
  }

  /** The system as written is solved exactly by the coefficients that satisfy
      its equations for every pair. */
  lemma WrittenSystemEquations(pa: seq<Point>, pb: seq<Point>, c: Coeffs)
    requires |pa| == |pb|
    ensures Solves(FindCoeffsSystem(pa, pb), c) <==> forall k :: 0 <= k < |pa| ==> WrittenEquations(c, pa[k], pb[k])
  {
    var sys := FindCoeffsSystem(pa, pb);
    if Solves(sys, c) {
      forall k | 0 <= k < |pa|
        ensures WrittenEquations(c, pa[k], pb[k])
      {
        WrittenRowPair(pa, pb, k, c);
      }
    }
    if forall k :: 0 <= k < |pa| ==> WrittenEquations(c, pa[k], pb[k]) {
      forall j | 0 <= j < |sys.rows|
        ensures RowHolds(sys, j, c)
      {
        WrittenRowPair(pa, pb, j / 2, c);
      }
    }
  }

  /** An axis-aligned rectangle, listed top-left, top-right, bottom-left,
      bottom-right, as both device presets are. */
  predicate IsRectangle(dst: seq<Point>) {
    && |dst| == 4
    && dst[0].x == dst[2].x && dst[1].x == dst[3].x && dst[0].x < dst[1].x
    && dst[0].y == dst[1].y && dst[2].y == dst[3].y && dst[0].y < dst[2].y
  }

  /** The scaling-and-shift transform from a rectangle onto the frame. */
  function RectangleFit(dst: seq<Point>, fw: int, fh: int): (c: Coeffs)
    requires IsRectangle(dst)
    ensures c.g == 0.0 && c.h == 0.0
  {
    var sx := fw as real / (dst[1].x - dst[0].x) as real;
    var sy := fh as real / (dst[2].y - dst[0].y) as real;
    Coeffs(sx, 0.0, -sx * dst[0].x as real, 0.0, sy, -sy * dst[0].y as real, 0.0, 0.0)
  }

  /** For a rectangular destination the system as written is solved by a
      transform that sends each corner of the rectangle to the matching corner
      of the frame, so the swapped terms do no harm to either preset. */
  lemma RectangleSystemSendsCorners(dst: seq<Point>, fw: int, fh: int)
    requires IsRectangle(dst)
    ensures var c := RectangleFit(dst, fw, fh);
            && Solves(FindCoeffsSystem(dst, SourceCorners(fw, fh)), c)
            && forall k :: 0 <= k < 4 ==> SendsTo(c, dst[k], SourceCorners(fw, fh)[k])
  {
    var c := RectangleFit(dst, fw, fh);
    var src := SourceCorners(fw, fh);
    var x0, x1 := dst[0].x as real, dst[1].x as real;
    var y0, y1 := dst[0].y as real, dst[2].y as real;
    assert c.a * (x1 - x0) == fw as real;
    assert c.e * (y1 - y0) == fh as real;
    assert c.a * x1 + c.c == c.a * (x1 - x0);
    assert c.e * y1 + c.f == c.e * (y1 - y0);
    assert forall k :: 0 <= k < 4 ==> SendsTo(c, dst[k], src[k]);
    IntendedSystemSendsCorners(dst, src, c);
    AffineSolutionsAgree(dst, src, c);
  }

  /** A product with a non-zero factor vanishes only when the other factor does. */
  lemma ZeroFactor(u: real, v: real)
    requires u != 0.0 && u * v == 0.0
    ensures v == 0.0
  {
  }

  /** The written equations for the corners `(x0, y0)`, `(x1, y0)`, `(x0, y1)`,
      `(x1, y1)` sent to the corners of a `w` x `h` frame. */
  predicate CornerEquations(x0: real, x1: real, y0: real, y1: real, w: real, h: real, c: Coeffs) {
    && c.a * x0 + c.b * y0 + c.c == 0.0
    && c.d * x0 + c.e * y0 + c.f == 0.0
    && c.a * x1 + c.b * y0 + c.c - w * x1 * c.g == w
    && c.d * x1 + c.e * y0 + c.f - w * y0 * c.g == 0.0
    && c.a * x0 + c.b * y1 + c.c - h * x0 * c.h == 0.0
    && c.d * x0 + c.e * y1 + c.f - h * y1 * c.h == h
    && c.a * x1 + c.b * y1 + c.c - w * x1 * c.g - h * x1 * c.h == w
    && c.d * x1 + c.e * y1 + c.f - w * y1 * c.g - h * y1 * c.h == h
  }

  /** The eight written equations for a rectangle `(x0, y0)`-`(x1, y1)` sent to a
      `w` x `h` frame leave no freedom: the perspective terms vanish and the
      transform is the scaling and shift onto the frame. */
  lemma RectangleEquationsForceFit(x0: real, x1: real, y0: real, y1: real, w: real, h: real, c: Coeffs)
    requires x0 < x1 && y0 < y1 && w != 0.0 && h != 0.0
    requires CornerEquations(x0, x1, y0, y1, w, h, c)
    ensures c.g == 0.0 && c.h == 0.0 && c.b == 0.0 && c.d == 0.0
    ensures c.a == w / (x1 - x0) && c.c == -c.a * x0
    ensures c.e == h / (y1 - y0) && c.f == -c.e * y0
  {
    assert (h * (x1 - x0)) * c.h == 0.0;
    ZeroFactor(h * (x1 - x0), c.h);
    assert (y1 - y0) * c.b == 0.0;
    ZeroFactor(y1 - y0, c.b);
    assert (w * (y1 - y0)) * c.g == 0.0;
    ZeroFactor(w * (y1 - y0), c.g);
    assert (x1 - x0) * c.d == 0.0;
    ZeroFactor(x1 - x0, c.d);
    DivideBack(c.a, x1 - x0, w);
    DivideBack(c.e, y1 - y0, h);
  }

  /** A quotient recovered from its product. */
  lemma DivideBack(u: real, v: real, w: real)
    requires v != 0.0 && u * v == w
    ensures u == w / v
  {
  }

  /** The written equations of a rectangle's four corner pairs, spelled out. */
  lemma RectangleWrittenEquations(dst: seq<Point>, fw: int, fh: int, c: Coeffs)
    requires IsRectangle(dst)
    requires Solves(FindCoeffsSystem(dst, SourceCorners(fw, fh)), c)
    ensures CornerEquations(dst[0].x as real, dst[1].x as real, dst[0].y as real, dst[2].y as real,
                            fw as real, fh as real, c)
  {
    var src := SourceCorners(fw, fh);
    WrittenSystemEquations(dst, src, c);
    assert WrittenEquations(c, dst[0], src[0]) && WrittenEquations(c, dst[1], src[1]);
    assert WrittenEquations(c, dst[2], src[2]) && WrittenEquations(c, dst[3], src[3]);
  }

  /** For a rectangle and a frame of non-zero size, the system as written has no
      solution but `RectangleFit`: the solver's answer is the corner-fitting
      transform. */
  lemma RectangleSolutionUnique(dst: seq<Point>, fw: int, fh: int, c: Coeffs)
    requires IsRectangle(dst) && fw != 0 && fh != 0
    requires Solves(FindCoeffsSystem(dst, SourceCorners(fw, fh)), c)
    ensures c == RectangleFit(dst, fw, fh)
  {
    RectangleSolutionFields(dst, fw, fh, c);
  }

  /** The coefficients any solution for a rectangle must have, field by field. */
  lemma RectangleSolutionFields(dst: seq<Point>, fw: int, fh: int, c: Coeffs)
    requires IsRectangle(dst) && fw != 0 && fh != 0
    requires Solves(FindCoeffsSystem(dst, SourceCorners(fw, fh)), c)
    ensures var x0, y0 := dst[0].x as real, dst[0].y as real;
            && c.g == 0.0 && c.h == 0.0 && c.b == 0.0 && c.d == 0.0
            && c.a == fw as real / (dst[1].x - dst[0].x) as real && c.c == -c.a * x0
            && c.e == fh as real / (dst[2].y - dst[0].y) as real && c.f == -c.e * y0
  {
    var x0, x1 := dst[0].x as real, dst[1].x as real;
    var y0, y1 := dst[0].y as real, dst[2].y as real;
    assert && c.g == 0.0 && c.h == 0.0 && c.b == 0.0 && c.d == 0.0
           && c.a == fw as real / (x1 - x0) && c.c == -c.a * x0
           && c.e == fh as real / (y1 - y0) && c.f == -c.e * y0 by {
      RectangleWrittenEquations(dst, fw, fh, c);
      RectangleEquationsForceFit(x0, x1, y0, y1, fw as real, fh as real, c);
    }
    assert (dst[1].x - dst[0].x) as real == x1 - x0 && (dst[2].y - dst[0].y) as real == y1 - y0;
  }

  /** A quad that is not a parallelogram: top-left (1,0), top-right (3,1),
      bottom-left (0,2), bottom-right (4,4), warped onto a 1 x 1 frame. */
  function SkewedQuad(): seq<Point> {
    [Point(1, 0), Point(3, 1), Point(0, 2), Point(4, 4)]
  }

  /** The exact solution of the system as written for `SkewedQuad`. */
  function SkewedWrittenSolution(): Coeffs {
    Coeffs(1.0 / 5.0, 1.0 / 10.0, -1.0 / 5.0, -1.0 / 3.0, 1.0 / 2.0, 1.0 / 3.0, -1.0 / 6.0, 1.0 / 6.0)
  }

  /** The system as written for `SkewedQuad` has a solution. */
  lemma SkewedWrittenSolves()
    ensures Solves(FindCoeffsSystem(SkewedQuad(), SourceCorners(1, 1)), SkewedWrittenSolution())
  {
    var pa, pb := SkewedQuad(), SourceCorners(1, 1);
    var c0 := SkewedWrittenSolution();
    assert WrittenEquations(c0, pa[0], pb[0]) && WrittenEquations(c0, pa[1], pb[1]);
    assert WrittenEquations(c0, pa[2], pb[2]) && WrittenEquations(c0, pa[3], pb[3]);
    WrittenSystemEquations(pa, pb, c0);
  }

  /** With the rows as written, the solved transform does not send the quad's
      top-right corner (3,1) to the frame's top-right corner (1,0): the system
      has no solution but `SkewedWrittenSolution`, which samples the frame at
      (3/4, -1/4) there. */
  lemma WrittenSystemMisplacesCorner(c: Coeffs)
    requires Solves(FindCoeffsSystem(SkewedQuad(), SourceCorners(1, 1)), c)
    ensures c == SkewedWrittenSolution()
    ensures !SendsTo(c, SkewedQuad()[1], SourceCorners(1, 1)[1])
  {
    var pa, pb := SkewedQuad(), SourceCorners(1, 1);
    WrittenSystemEquations(pa, pb, c);
    assert WrittenEquations(c, pa[0], pb[0]) && WrittenEquations(c, pa[1], pb[1]);
    assert WrittenEquations(c, pa[2], pb[2]) && WrittenEquations(c, pa[3], pb[3]);
  }

  /** The corrected system for the same quad is solved by a transform that does
      send all four corners home. */
  lemma IntendedSystemFitsSkewedQuad()
    ensures var c := Coeffs(1.0 / 3.0, 1.0 / 6.0, -1.0 / 3.0, -1.0 / 3.0, 2.0 / 3.0, 1.0 / 3.0, -1.0 / 6.0, 1.0 / 3.0);
            && Solves(IntendedSystem(SkewedQuad(), SourceCorners(1, 1)), c)
            && forall k :: 0 <= k < 4 ==> SendsTo(c, SkewedQuad()[k], SourceCorners(1, 1)[k])
  {
    var c := Coeffs(1.0 / 3.0, 1.0 / 6.0, -1.0 / 3.0, -1.0 / 3.0, 2.0 / 3.0, 1.0 / 3.0, -1.0 / 6.0, 1.0 / 3.0);
    var pa, pb := SkewedQuad(), SourceCorners(1, 1);
    assert SendsTo(c, pa[0], pb[0]) && SendsTo(c, pa[1], pb[1]);
    assert SendsTo(c, pa[2], pb[2]) && SendsTo(c, pa[3], pb[3]);
    IntendedSystemSendsCorners(pa, pb, c);
  }
}

=== FILE: pipeline.dfy ===
/** `createMacMockup` and `createIphoneMockup` (main.py:255-293): capture the page
    at the device's viewport, slice the capture into viewport-high frames, play
    them as a GIF and fit that GIF into the device's screen. The prompts become
    parameters, and so does what the browser and Pillow report back: the size
    of the full-page capture and the frame duration read from the saved GIF. */
module Pipeline {
  import opened Common
  import opened Text
  import opened FrameNaming
  import opened FrameSlicer
  import opened GifAssembler
  import opened Perspective
  import opened Overlay
  import opened Screenshot

  /** A mockup preset: the viewport the page is captured at and the screen quad
      of the device picture, top-left, top-right, bottom-left, bottom-right. */
  datatype Device = Device(width: int, height: int, screen: seq<(real, real)>)

  /** main.py:260, 265. */
  const Mac: Device := Device(1920, 1080, MacScreen)

  /** main.py:280, 285. */
  const Iphone: Device := Device(828, 1792, IphoneScreen)

  /** Everything one run produces, step by step. */
  datatype Mockup = Mockup(screenshot: string, frames: seq<Frame>, gif: Gif, overlay: Option<OverlayGif>)

  /** The names `os.listdir` finds in the frames folder once the frames are saved. */
  function FolderListing(frames: seq<Frame>): (names: seq<string>)
    ensures |names| == |frames|
    ensures forall i :: 0 <= i < |frames| ==> names[i] == frames[i].name
  {
    seq(|frames|, i requires 0 <= i < |frames| => frames[i].name)
  }

  /** One mockup run. The capture is `pageWidth` x `pageHeight` pixels. The
      frames folder is emptied first (main.py:262), so it then holds exactly
      the frames of this run. They are listed here in index order; by
      `GifAssembler.ListingOrderIrrelevant` any other listing order gives the
      same GIF. */
  function MockupRun(device: Device, url: string, pageWidth: int, pageHeight: int,
                     frameCount: int, seconds: int, recordedDelay: Option<int>): (r: Result<Mockup>)
    ensures r.Err? <==> frameCount <= 0
    ensures frameCount == 0 ==> r == Err(ZeroDivision)
    ensures frameCount < 0 ==> r == Err(NoFrameFiles)
    ensures r.Ok? ==>
      && r.value.screenshot == ScreenshotPath(url, device.width, device.height)
      && |r.value.frames| == |r.value.gif.frames| == frameCount + 1
      && (forall i :: 0 <= i <= frameCount ==>
            r.value.frames[i] == SliceFrame(ImageName(r.value.screenshot), i, pageWidth, pageHeight,
                                            device.height, frameCount))
      && r.value.overlay.Some?
      && |r.value.overlay.value.systems| == frameCount + 1
  {
    var shot := ScreenshotPath(url, device.width, device.height);
    match CreateFrames(shot, pageWidth, pageHeight, frameCount, device.height)
    case Err(e) => Err(e)
    case Ok(frames) =>
      match CreateGif(FolderListing(frames), seconds)
      case Err(e) => Err(e)
      case Ok(gif) =>
        assert |gif.frames| == |multiset(gif.frames)| == |frames|;
        var sizes := seq(|gif.frames|, _ => (pageWidth, device.height));
        Ok(Mockup(shot, frames, gif, AddOverlay(gif.name, sizes, device.screen, recordedDelay)))
  }

  /** After slicing, the folder holds the names of frames 0 .. frameCount. */
  lemma SlicedListing(path: string, pageWidth: int, pageHeight: int, frameCount: int, viewportHeight: int)
    requires frameCount > 0
    ensures var frames := CreateFrames(path, pageWidth, pageHeight, frameCount, viewportHeight);
            frames.Ok? && FolderListing(frames.value) == FrameNames(ImageName(path), frameCount + 1)
  {
    var frames := CreateFrames(path, pageWidth, pageHeight, frameCount, viewportHeight).value;
    var names := FrameNames(ImageName(path), frameCount + 1);
    forall i | 0 <= i < |names|
      ensures FolderListing(frames)[i] == names[i]
    {
      assert frames[i].name == FrameName(ImageName(path), i);
    }
    assert FolderListing(frames) == names;
  }

  /** A successful run names its GIF after the capture, spreads the requested
      time over its frames, and plays them in index order exactly when there are
      at most 1000 of them. */
  lemma MockupGif(device: Device, url: string, pageWidth: int, pageHeight: int,
                  frameCount: int, seconds: int, recordedDelay: Option<int>)
    requires frameCount > 0
    ensures var r := MockupRun(device, url, pageWidth, pageHeight, frameCount, seconds, recordedDelay);
            var base := ImageName(ScreenshotPath(url, device.width, device.height));
            && r.Ok?
            && r.value.gif.name == base + ".gif"
            && r.value.gif.delayMs == FrameDelay(seconds, frameCount + 1)
            && (r.value.gif.frames == FrameNames(base, frameCount + 1) <==> frameCount < 1000)
  {
    var shot := ScreenshotPath(url, device.width, device.height);
    var base := ImageName(shot);
    SlicedListing(shot, pageWidth, pageHeight, frameCount, device.height);
    SlicedGif(base, frameCount + 1, FrameNames(base, frameCount + 1), seconds);
    RunSteps(device, url, pageWidth, pageHeight, frameCount, seconds, recordedDelay);
  }

  /** The overlay GIF of a successful run is named after the capture too, and
      fits every frame with the same system: the one for a frame as wide as the
      capture and as high as the viewport. */
  lemma MockupOverlay(device: Device, url: string, pageWidth: int, pageHeight: int,
                      frameCount: int, seconds: int, recordedDelay: Option<int>)
    requires frameCount > 0
    ensures var r := MockupRun(device, url, pageWidth, pageHeight, frameCount, seconds, recordedDelay);
            var base := ImageName(ScreenshotPath(url, device.width, device.height));
            && r.Ok?
            && r.value.overlay.Some?
            && r.value.overlay.value.name == base + OverlaySuffix
            && forall i :: 0 <= i <= frameCount ==>
                 r.value.overlay.value.systems[i] == OverlaySystem(device.screen, pageWidth, device.height)
  {
    var base := ImageName(ScreenshotPath(url, device.width, device.height));
    MockupGif(device, url, pageWidth, pageHeight, frameCount, seconds, recordedDelay);
    RunSteps(device, url, pageWidth, pageHeight, frameCount, seconds, recordedDelay);
    var r := MockupRun(device, url, pageWidth, pageHeight, frameCount, seconds, recordedDelay);
    UniformFrames(r.value.gif.name, pageWidth, device.height, frameCount + 1, device.screen, recordedDelay);
    OverlayNameOfGif(base);
  }

  /** A run with frames is the three steps chained: the GIF built from the
      folder's listing, and the overlay of that GIF. */
  lemma RunSteps(device: Device, url: string, pageWidth: int, pageHeight: int,
                 frameCount: int, seconds: int, recordedDelay: Option<int>)
    requires frameCount > 0
    ensures var shot := ScreenshotPath(url, device.width, device.height);
            var frames := CreateFrames(shot, pageWidth, pageHeight, frameCount, device.height);
            var gif := CreateGif(FolderListing(frames.value), seconds);
            var r := MockupRun(device, url, pageWidth, pageHeight, frameCount, seconds, recordedDelay);
            && frames.Ok? && gif.Ok? && r.Ok?
            && r.value.frames == frames.value
            && r.value.gif == gif.value
            && r.value.overlay == AddOverlay(gif.value.name, seq(frameCount + 1, _ => (pageWidth, device.height)),
                                             device.screen, recordedDelay)
  {
  }

  /** The Mac mockup of a bare host: with the host free of '/' and of ".png", the
      GIF is `{host}_1920x1080.gif` and the overlay `{host}_1920x1080_with_overlay.gif`. */
  lemma MacMockupOfHost(host: string, pageWidth: int, pageHeight: int,
                        frameCount: int, seconds: int, recordedDelay: Option<int>)
    requires '/' !in host
    requires forall k: nat :: !OccursAt(host, ".png", k)
    requires frameCount > 0
    ensures var r := MockupRun(Mac, "https://" + host, pageWidth, pageHeight, frameCount, seconds, recordedDelay);
            && r.Ok?
            && r.value.gif.name == host + "_1920x1080.gif"
            && r.value.overlay.value.name == host + "_1920x1080_with_overlay.gif"
  {
    var url := "https://" + host;
    var stem := host + "_1920x1080";
    MockupGif(Mac, url, pageWidth, pageHeight, frameCount, seconds, recordedDelay);
    MockupOverlay(Mac, url, pageWidth, pageHeight, frameCount, seconds, recordedDelay);
    ImageNameOfHost(host, Mac.width, Mac.height);
    MacStem(host);
    assert ImageName(ScreenshotPath(url, Mac.width, Mac.height)) == stem;
    MacOutputNames(host);
  }

  /** Literal concatenation, proved away from the larger context above. */
  lemma MacOutputNames(host: string)
    ensures host + "_1920x1080" + ".gif" == host + "_1920x1080.gif"
    ensures host + "_1920x1080" + OverlaySuffix == host + "_1920x1080_with_overlay.gif"
  {
  }

  /** The Mac viewport spelled out: `_1920x1080`. */
  lemma MacStem(host: string)
    ensures HostStem(host, Mac.width, Mac.height) == host + "_1920x1080"
  {
    assert NatToDecimal(1) == "1" && NatToDecimal(19) == "19" && NatToDecimal(192) == "192";
    assert IntToDecimal(1920) == "1920";
    assert NatToDecimal(10) == "10" && NatToDecimal(108) == "108";
    assert IntToDecimal(1080) == "1080";
  }

  /** The iPhone mockup of a bare host: the GIF is `{host}_828x1792.gif` and the
      overlay `{host}_828x1792_with_overlay.gif`. */
  lemma IphoneMockupOfHost(host: string, pageWidth: int, pageHeight: int,
                           frameCount: int, seconds: int, recordedDelay: Option<int>)
    requires '/' !in host
    requires forall k: nat :: !OccursAt(host, ".png", k)
    requires frameCount > 0
    ensures var r := MockupRun(Iphone, "https://" + host, pageWidth, pageHeight, frameCount, seconds, recordedDelay);
            && r.Ok?
            && r.value.gif.name == host + "_828x1792.gif"
            && r.value.overlay.value.name == host + "_828x1792_with_overlay.gif"
  {
    var url := "https://" + host;
    var stem := host + "_828x1792";
    MockupGif(Iphone, url, pageWidth, pageHeight, frameCount, seconds, recordedDelay);
    MockupOverlay(Iphone, url, pageWidth, pageHeight, frameCount, seconds, recordedDelay);
    ImageNameOfHost(host, Iphone.width, Iphone.height);
    IphoneStem(host);
    assert ImageName(ScreenshotPath(url, Iphone.width, Iphone.height)) == stem;
    IphoneOutputNames(host);
  }

  lemma IphoneOutputNames(host: string)
    ensures host + "_828x1792" + ".gif" == host + "_828x1792.gif"
    ensures host + "_828x1792" + OverlaySuffix == host + "_828x1792_with_overlay.gif"
  {
  }

  /** The iPhone viewport spelled out: `_828x1792`. */
  lemma IphoneStem(host: string)
    ensures HostStem(host, Iphone.width, Iphone.height) == host + "_828x1792"
  {
    assert NatToDecimal(8) == "8" && NatToDecimal(82) == "82";
    assert IntToDecimal(828) == "828";
    assert NatToDecimal(1) == "1" && NatToDecimal(17) == "17" && NatToDecimal(179) == "179";
    assert IntToDecimal(1792) == "1792";
  }
}

=== FILE: screenshot.dfy ===
/** Where `screenWebPage` stores the full-page capture (main.py:86-99): the URL
    with its scheme dropped and every '/' turned into '_', then the viewport
    size, under the `screen/` folder. The browser itself is not modelled. */
module Screenshot {
  import opened Text
  import opened FrameNaming

  const ScreenFolder: string := "screen/"

  /** `_{width}x{height}.png`, the part of the name that records the viewport. */
  function SizeSuffix(width: int, height: int): string {
    "_" + IntToDecimal(width) + "x" + IntToDecimal(height) + ".png"
  }

  /** The file name of the capture of `url` at `width` x `height` (main.py:87). */
  function ScreenshotName(url: string, width: int, height: int): (r: string)
    ensures '/' !in r
    ensures |r| >= |SizeSuffix(width, height)|
    ensures r[|r| - |SizeSuffix(width, height)|..] == SizeSuffix(width, height)
  {
    var stripped := ReplaceAll(ReplaceAll(url, "http://", ""), "https://", "");
    var flat := ReplaceAll(stripped, "/", "_");
    NoSeparatorInDecimal(width);
    NoSeparatorInDecimal(height);
    var suffix := SizeSuffix(width, height);
    assert '/' !in suffix by {
      assert suffix == "_" + IntToDecimal(width) + "x" + IntToDecimal(height) + ".png";
    }
    ReplaceAllChar(stripped, '/', '_');
    assert '/' !in flat by {
      forall k | 0 <= k < |flat| ensures flat[k] != '/' { }
    }
    flat + suffix
  }

  /** The path `screenWebPage` returns (main.py:99). */
  function ScreenshotPath(url: string, width: int, height: int): string {
    ScreenFolder + ScreenshotName(url, width, height)
  }

  /** `str(i)` is digits and perhaps a minus sign: no path or extension separator. */
  lemma NoSeparatorInDecimal(i: int)
    ensures '/' !in IntToDecimal(i) && '.' !in IntToDecimal(i)
  {
    var r := IntToDecimal(i);
    forall k | 0 <= k < |r| ensures r[k] != '/' && r[k] != '.' {
      if i < 0 && k > 0 {
        assert r[k] == r[1..][k - 1];
      }
    }
  }

  /** A string without '/' holds no occurrence of a pattern that has one. */
  lemma NoOccurrenceWithoutSlash(s: string, pat: string)
    requires '/' !in s && '/' in pat
    ensures forall k: nat :: !OccursAt(s, pat, k)
  {
    var j :| 0 <= j < |pat| && pat[j] == '/';
    forall k: nat ensures !OccursAt(s, pat, k) {
      if k + |pat| <= |s| {
        assert s[k..k + |pat|][j] == s[k + j] != '/';
      }
    }
  }

  /** Below a folder, the base name of a '/'-free name is the name itself. */
  lemma {:induction false} BaseNameInFolder(folder: string, name: string)
    requires |folder| > 0 && folder[|folder| - 1] == '/' && '/' !in name
    ensures BaseName(folder + name) == name
  {
    if |name| > 0 {
      var path := folder + name;
      var init := name[..|name| - 1];
      assert path[..|path| - 1] == folder + init;
      BaseNameInFolder(folder, init);
      assert name == init + [name[|name| - 1]];
    }
  }

  /** The base name of the returned path is the screenshot's own name: the
      folder is the only directory in it. */
  lemma BaseNameOfScreenshot(url: string, width: int, height: int)
    ensures BaseName(ScreenshotPath(url, width, height)) == ScreenshotName(url, width, height)
  {
    BaseNameInFolder(ScreenFolder, ScreenshotName(url, width, height));
  }

  /** "https://" has no "http://" inside it: the only slashes are its last two,
      and "ttps://" is not "http://". */
  lemma SchemeHoldsNoPlainScheme(host: string)
    requires '/' !in host
    ensures forall k: nat :: !OccursAt("https://" + host, "http://", k)
  {
    var s := "https://" + host;
    forall k: nat ensures !OccursAt(s, "http://", k) {
      if k + 7 <= |s| {
        if k == 0 {
          assert s[k..k + 7][4] == 's';
        } else if k == 1 {
          assert s[k..k + 7][0] == 't';
        } else {
          assert s[k..k + 7][6] == host[k - 2] != '/';
        }
      }
    }
  }

  /** For a URL naming a bare host, the name is the host followed by the size,
      whichever scheme the URL carries: the scheme is stripped and nothing
      else changes. */
  lemma HostUrlName(host: string, width: int, height: int)
    requires '/' !in host
    ensures ScreenshotName("https://" + host, width, height) == host + SizeSuffix(width, height)
    ensures ScreenshotName("http://" + host, width, height) == host + SizeSuffix(width, height)
    ensures ScreenshotName(host, width, height) == host + SizeSuffix(width, height)
  {
    NoOccurrenceWithoutSlash(host, "http://");
    ReplaceAllUnchanged(host, "http://", "");
    NoOccurrenceWithoutSlash(host, "https://");
    ReplaceAllUnchanged(host, "https://", "");
    NoOccurrenceWithoutSlash(host, "/");
    ReplaceAllUnchanged(host, "/", "_");

    SchemeHoldsNoPlainScheme(host);
    ReplaceAllUnchanged("https://" + host, "http://", "");
    assert ("https://" + host)[..8] == "https://" && ("https://" + host)[8..] == host;
    assert ReplaceAll("https://" + host, "https://", "") == host;

    assert ("http://" + host)[..7] == "http://" && ("http://" + host)[7..] == host;
    assert ReplaceAll("http://" + host, "http://", "") == host;
  }

  /** `s` with every '/' turned into '_', character by character. */
  function SlashesToUnderscores(s: string): (r: string)
    ensures |r| == |s|
    ensures '/' !in r
  {
    seq(|s|, k requires 0 <= k < |s| => if s[k] == '/' then '_' else s[k])
  }

  /** `replace('/', '_')` is that character-by-character map. */
  lemma FlattenSlashes(s: string)
    ensures ReplaceAll(s, "/", "_") == SlashesToUnderscores(s)
  {
    ReplaceAllChar(s, '/', '_');
    assert "/" == ['/'] && "_" == ['_'];
  }

  /** Where "http://" does not occur in `rest`, it does not occur in
      "https://" + `rest` either. */
  lemma TlsUrlHoldsNoPlainScheme(rest: string)
    requires forall k: nat :: !OccursAt(rest, "http://", k)
    ensures forall k: nat :: !OccursAt("https://" + rest, "http://", k)
  {
    var s := "https://" + rest;
    assert s[..8] == "https://" && s[8..] == rest;
    forall k: nat ensures !OccursAt(s, "http://", k) {
      if k + 7 <= |s| {
        if k == 0 {
          assert s[k..k + 7][4] == 's';
        } else if k < 8 {
          assert s[k..k + 7][0] == s[..8][k] != 'h';
        } else {
          assert s[k..k + 7] == rest[k - 8..k - 1];
          assert !OccursAt(rest, "http://", k - 8);
        }
      }
    }
  }

  /** Removing a scheme that starts the URL and occurs nowhere else leaves the rest. */
  lemma StripLeadingScheme(scheme: string, rest: string)
    requires |scheme| > 0
    requires forall k: nat :: !OccursAt(rest, scheme, k)
    ensures ReplaceAll(scheme + rest, scheme, "") == rest
  {
    var s := scheme + rest;
    assert s[..|scheme|] == scheme && s[|scheme|..] == rest;
    ReplaceAllUnchanged(rest, scheme, "");
  }

  /** For a URL with a path, the name is the URL without its scheme, each '/'
      turned into '_', followed by the size. This holds for the `https://`
      and `http://` forms and for a URL without a scheme, whenever neither
      scheme string occurs again after the start. */
  lemma SchemeUrlName(rest: string, width: int, height: int)
    requires forall k: nat :: !OccursAt(rest, "http://", k)
    requires forall k: nat :: !OccursAt(rest, "https://", k)
    ensures ScreenshotName("https://" + rest, width, height) == SlashesToUnderscores(rest) + SizeSuffix(width, height)
    ensures ScreenshotName("http://" + rest, width, height) == SlashesToUnderscores(rest) + SizeSuffix(width, height)
    ensures ScreenshotName(rest, width, height) == SlashesToUnderscores(rest) + SizeSuffix(width, height)
  {
    FlattenSlashes(rest);
    ReplaceAllUnchanged(rest, "http://", "");
    ReplaceAllUnchanged(rest, "https://", "");
    TlsUrlHoldsNoPlainScheme(rest);
    ReplaceAllUnchanged("https://" + rest, "http://", "");
    StripLeadingScheme("https://", rest);
    StripLeadingScheme("http://", rest);
  }

  /** The part of the name before ".png": the host, then `_{width}x{height}`. */
  function HostStem(host: string, width: int, height: int): string {
    host + "_" + IntToDecimal(width) + "x" + IntToDecimal(height)
  }

  /** Before the final ".png", `{host}{tail}.png` holds no ".png" when the host
      holds none and the tail starts with '_' and has no '.'; so removing every
      ".png" removes only the last one. */
  lemma OnlyFinalExtension(host: string, tail: string)
    requires forall k: nat :: !OccursAt(host, ".png", k)
    requires |tail| > 0 && tail[0] == '_' && '.' !in tail
    ensures ReplaceAll(host + tail + ".png", ".png", "") == host + tail
  {
    var name := host + tail + ".png";
    forall k: nat | k < |host + tail| ensures !OccursAt(name, ".png", k) {
      if k + 4 <= |name| {
        var w := name[k..k + 4];
        if k + 4 <= |host| {
          assert w == host[k..k + 4];
          assert !OccursAt(host, ".png", k);
        } else if k < |host| {
          assert w[|host| - k] == name[|host|] == '_';
        } else {
          assert w[0] == tail[k - |host|] != '.';
        }
      }
    }
    ReplaceAllSkipsPrefix(host + tail, ".png", ".png", "");
    assert ".png"[..4] == ".png";
    assert ReplaceAll(".png", ".png", "") == "" + ReplaceAll("", ".png", "");
  }

  /** The capture of a bare host is saved as `{host}_{width}x{height}.png`. */
  lemma HostScreenshotName(host: string, width: int, height: int)
    requires '/' !in host
    ensures ScreenshotName("https://" + host, width, height) == HostStem(host, width, height) + ".png"
  {
    HostUrlName(host, width, height);
    HostStemAndSuffix(host, width, height);
  }

  /** The host followed by the size suffix is the stem followed by ".png". */
  lemma HostStemAndSuffix(host: string, width: int, height: int)
    ensures host + SizeSuffix(width, height) == HostStem(host, width, height) + ".png"
  {
    var tail := "_" + IntToDecimal(width) + "x" + IntToDecimal(height);
    assert SizeSuffix(width, height) == tail + ".png";
    assert HostStem(host, width, height) == host + tail;
  }

  /** The frames of a capture of a bare host are stamped `{host}_{width}x{height}`
      (main.py:109 applied to the path of main.py:99), provided the host does not
      itself contain ".png", which `replace` would delete as well. */
  lemma ImageNameOfHost(host: string, width: int, height: int)
    requires '/' !in host
    requires forall k: nat :: !OccursAt(host, ".png", k)
    ensures ImageName(ScreenshotPath("https://" + host, width, height)) == HostStem(host, width, height)
  {
    HostBaseName(host, width, height);
    OnlyFinalExtension(host, SizeTail(width, height));
    HostStemTail(host, width, height);
  }

  /** `_{width}x{height}`: it starts with '_' and holds no '.'. */
  function SizeTail(width: int, height: int): (t: string)
    ensures |t| > 0 && t[0] == '_' && '.' !in t
  {
    NoSeparatorInDecimal(width);
    NoSeparatorInDecimal(height);
    "_" + IntToDecimal(width) + "x" + IntToDecimal(height)
  }

  /** The stem is the host followed by the size tail. */
  lemma HostStemTail(host: string, width: int, height: int)
    ensures HostStem(host, width, height) == host + SizeTail(width, height)
  {
  }

  /** The base name of a bare host's capture is the host, the size tail and ".png". */
  lemma HostBaseName(host: string, width: int, height: int)
    requires '/' !in host
    ensures BaseName(ScreenshotPath("https://" + host, width, height)) == host + SizeTail(width, height) + ".png"
  {
    BaseNameOfScreenshot("https://" + host, width, height);
    HostScreenshotName(host, width, height);
    HostStemTail(host, width, height);
  }

  /** `replace('.png', '')` deletes every ".png" in the name, not only the
      extension: the frames of a host `{x}.png{y}` are stamped as if the host
      were `{x}{y}` (`https://a.pngb` gives `ab_{width}x{height}`). */
  lemma InnerPngRemoved(x: char, y: char, width: int, height: int)
    requires x != '/' && x != '.' && y != '/'
    ensures ImageName(ScreenshotPath("https://" + ([x] + ".png" + [y]), width, height))
         == HostStem([x, y], width, height)
  {
    var tail := SizeTail(width, height);
    PngHostBaseName(x, y, width, height);
    SkipInnerPng(x, [y] + tail + ".png");
    OnlyFinalExtension([y], tail);
    PairStem(x, y, width, height);
  }

  /** The base name of the capture of `{x}.png{y}`, grouped for the scan. */
  lemma PngHostBaseName(x: char, y: char, width: int, height: int)
    requires x != '/' && y != '/'
    ensures BaseName(ScreenshotPath("https://" + ([x] + ".png" + [y]), width, height))
         == [x] + (".png" + ([y] + SizeTail(width, height) + ".png"))
  {
    var host := [x] + ".png" + [y];
    assert '/' !in host by {
      assert forall k :: 0 <= k < |host| ==> host[k] != '/';
    }
    HostBaseName(host, width, height);
    Regroup([x], ".png", [y], SizeTail(width, height), ".png");
  }

  /** Concatenation regrouped to the right. */
  lemma Regroup(a: string, b: string, c: string, d: string, e: string)
    ensures a + b + c + d + e == a + (b + (c + d + e))
  {
  }

  /** The scan keeps a first character other than '.' and then drops a ".png". */
  lemma SkipInnerPng(x: char, rest: string)
    requires x != '.'
    ensures ReplaceAll([x] + (".png" + rest), ".png", "") == [x] + ReplaceAll(rest, ".png", "")
  {
    forall k: nat | k < 1 ensures !OccursAt([x] + (".png" + rest), ".png", k) {
      assert ([x] + (".png" + rest))[0] == x;
    }
    ReplaceAllSkipsPrefix([x], ".png" + rest, ".png", "");
    DropLeadingPng(rest);
  }

  /** A ".png" at the start of the scan is dropped. */
  lemma DropLeadingPng(rest: string)
    ensures ReplaceAll(".png" + rest, ".png", "") == ReplaceAll(rest, ".png", "")
  {
    assert (".png" + rest)[..4] == ".png" && (".png" + rest)[4..] == rest;
  }

  /** The stem of the two-character host `{x}{y}`, grouped like the scan's result. */
  lemma PairStem(x: char, y: char, width: int, height: int)
    ensures HostStem([x, y], width, height) == [x] + ([y] + SizeTail(width, height))
  {
    HostStemTail([x, y], width, height);
    assert [x, y] == [x] + [y];
  }
}

=== FILE: sorting.dfy ===
/** Python's `sorted` on a list of `str`. Strings are totally ordered, so every
    correct sort returns the same list; an insertion sort stands in for Timsort. */
module Sorting {
  import opened Text

  predicate Sorted(s: seq<string>) {
    forall i, j :: 0 <= i < j < |s| ==> LexLe(s[i], s[j])
  }

  predicate StrictlyIncreasing(s: seq<string>) {
    forall i, j :: 0 <= i < j < |s| ==> LexLess(s[i], s[j])
  }

  lemma LexLeTransitive(a: string, b: string, c: string)
    requires LexLe(a, b) && LexLe(b, c)
    ensures LexLe(a, c)
  {
    if a != b && b != c {
      LexLessTransitive(a, b, c);
    }
  }

  /** A list stays sorted when an element no greater than any of its elements goes in front. */
  lemma ConsSorted(y: string, t: seq<string>)
    requires Sorted(t)
    requires forall j :: 0 <= j < |t| ==> LexLe(y, t[j])
    ensures Sorted([y] + t)
  {
  }

  /** Every element of a sorted list is at least its head. */
  lemma HeadIsLeast(s: seq<string>, j: int)
    requires Sorted(s) && 0 < j < |s|
    ensures LexLe(s[0], s[j])
  {
  }

  lemma LeastOfInsertion(x: string, s: seq<string>, t: seq<string>)
    requires Sorted(s) && |s| > 0 && LexLess(s[0], x)
    requires multiset(t) == multiset(s[1..]) + multiset{x}
    ensures forall j :: 0 <= j < |t| ==> LexLe(s[0], t[j])
  {
    forall j | 0 <= j < |t|
      ensures LexLe(s[0], t[j])
    {
      assert t[j] in multiset(t);
      if t[j] != x {
        assert t[j] in multiset(s[1..]);
        var k :| 0 <= k < |s[1..]| && s[1..][k] == t[j];
        HeadIsLeast(s, k + 1);
      }
    }
  }

  /** Inserting into a sorted list keeps it sorted and adds exactly one element. */
  function Insert(x: string, s: seq<string>): (r: seq<string>)
    requires Sorted(s)
    ensures Sorted(r)
    ensures multiset(r) == multiset(s) + multiset{x}
  {
    if |s| == 0 then [x]
    else if LexLe(x, s[0]) then
      assert forall j :: 0 <= j < |s| ==> LexLe(x, s[j]) by {
        forall j | 0 < j < |s|
          ensures LexLe(x, s[j])
        {
          LexLeTransitive(x, s[0], s[j]);
        }
      }
      ConsSorted(x, s);
      [x] + s
    else
      LexLessTotal(x, s[0]);
      var t := Insert(x, s[1..]);
      LeastOfInsertion(x, s, t);
      ConsSorted(s[0], t);
      assert s == [s[0]] + s[1..];
      [s[0]] + t
  }

  /** Python's `sorted(names)`: the names in ascending order, none lost or added. */
  function SortNames(s: seq<string>): (r: seq<string>)
    ensures Sorted(r)
    ensures multiset(r) == multiset(s)
  {
    if |s| == 0 then []
    else
      assert s == [s[0]] + s[1..];
      Insert(s[0], SortNames(s[1..]))
  }

  lemma MultisetTail(a: seq<string>, b: seq<string>)
    requires |a| > 0 && |b| > 0 && a[0] == b[0] && multiset(a) == multiset(b)
    ensures multiset(a[1..]) == multiset(b[1..])
  {
    assert a == [a[0]] + a[1..];
    assert b == [b[0]] + b[1..];
    assert multiset(a[1..]) == multiset(a) - multiset{a[0]};
    assert multiset(b[1..]) == multiset(b) - multiset{b[0]};
  }

  /** The heads of two sorted arrangements of one collection coincide. */
  lemma SameHead(a: seq<string>, b: seq<string>)
    requires Sorted(a) && Sorted(b) && multiset(a) == multiset(b) && |a| > 0
    ensures |b| > 0 && a[0] == b[0]
  {
    assert a[0] in multiset(b);
    var i :| 0 <= i < |b| && b[i] == a[0];
    assert b[0] in multiset(a);
    var j :| 0 <= j < |a| && a[j] == b[0];
    assert LexLe(b[0], a[0]) by {
      if i > 0 {
        HeadIsLeast(b, i);
      }
    }
    assert LexLe(a[0], b[0]) by {
      if j > 0 {
        HeadIsLeast(a, j);
      }
    }
    if a[0] != b[0] {
      LexLessAsymmetric(a[0], b[0]);
    }
  }

  /** Only one ordering of a collection of strings is sorted. */
  lemma {:induction false} SortedUnique(a: seq<string>, b: seq<string>)
    requires Sorted(a) && Sorted(b) && multiset(a) == multiset(b)
    ensures a == b
    decreases |a|
  {
    if |a| > 0 {
      SameHead(a, b);
      MultisetTail(a, b);
      SortedUnique(a[1..], b[1..]);
      assert a == [a[0]] + a[1..] && b == [b[0]] + b[1..];
    } else {
      assert |b| == |multiset(b)| == 0;
    }
  }

  /** `sorted` returns any arrangement of an already increasing list to that list. */
  lemma SortRestoresIncreasing(names: seq<string>, listing: seq<string>)
    requires StrictlyIncreasing(names)
    requires multiset(listing) == multiset(names)
    ensures SortNames(listing) == names
  {
    SortedUnique(SortNames(listing), names);
  }
}

=== FILE: text.dfy ===
/** The string operations the pipeline leans on, with Python's meaning:
    `str(n)`, the `{n:0Nd}` format, `str.replace`, and the code-point
    ordering that `<` and `sorted` use on `str`. */
module Text {
  import opened Common

  predicate IsDigit(c: char) {
    '0' <= c <= '9'
  }

  predicate AllDigits(s: string) {
    forall k :: 0 <= k < |s| ==> IsDigit(s[k])
  }

  function DigitChar(d: nat): (c: char)
    requires d < 10
    ensures IsDigit(c)
  {
    ('0' as int + d) as char
  }

  function DigitValue(c: char): (d: nat)
    requires IsDigit(c)
    ensures d < 10
  {
    c as int - '0' as int
  }

  /** The number a string of decimal digits spells (leading zeros allowed). */
  function DecimalValue(s: string): nat
    requires AllDigits(s)
  {
    if |s| == 0 then 0 else 10 * DecimalValue(s[..|s| - 1]) + DigitValue(s[|s| - 1])
  }

  /** Python's `str(n)` for a non-negative integer. */
  function NatToDecimal(n: nat): (r: string)
    ensures 1 <= |r| && AllDigits(r)
    ensures r[0] == '0' ==> n == 0
  {
    if n < 10 then [DigitChar(n)] else NatToDecimal(n / 10) + [DigitChar(n % 10)]
  }

  /** Python's `str(i)` for any integer: a minus sign before the magnitude. */
  function IntToDecimal(i: int): (r: string)
    ensures 1 <= |r|
    ensures i >= 0 ==> AllDigits(r)
    ensures i < 0 ==> r[0] == '-' && AllDigits(r[1..])
  {
    if i < 0 then "-" + NatToDecimal(-i) else NatToDecimal(i)
  }

  /** Reading back what `NatToDecimal` wrote gives the number again. */
  lemma {:induction false} DecimalRoundTrip(n: nat)
    ensures DecimalValue(NatToDecimal(n)) == n
  {
    if n >= 10 {
      var s := NatToDecimal(n);
      assert s[..|s| - 1] == NatToDecimal(n / 10);
      DecimalRoundTrip(n / 10);
    }
  }

  function Pow10(k: nat): (p: nat)
    ensures p >= 1
  {
    if k == 0 then 1 else 10 * Pow10(k - 1)
  }

  /** `str(n)` fits in `k` characters exactly when `n < 10^k`. */
  lemma {:induction false} DecimalLength(n: nat, k: nat)
    requires k >= 1
    ensures |NatToDecimal(n)| <= k <==> n < Pow10(k)
  {
    if n >= 10 {
      if k == 1 {
        assert |NatToDecimal(n)| == |NatToDecimal(n / 10)| + 1;
      } else {
        DecimalLength(n / 10, k - 1);
        assert n / 10 < Pow10(k - 1) <==> n < 10 * Pow10(k - 1);
      }
    } else {
      PowAtLeastTen(k);
    }
  }

  lemma {:induction false} PowAtLeastTen(k: nat)
    requires k >= 1
    ensures Pow10(k) >= 10
  {
    if k > 1 {
      PowAtLeastTen(k - 1);
    }
  }

  function Zeros(k: nat): (r: string)
    ensures |r| == k && AllDigits(r)
    ensures forall j :: 0 <= j < k ==> r[j] == '0'
  {
    seq(k, _ => '0')
  }

  /** Leading zeros do not change the value of a digit string. */
  lemma {:induction false} LeadingZerosValue(k: nat, d: string)
    requires AllDigits(d)
    ensures AllDigits(Zeros(k) + d)
    ensures DecimalValue(Zeros(k) + d) == DecimalValue(d)
    decreases |d| + k
  {
    var s := Zeros(k) + d;
    assert AllDigits(s) by {
      forall j | 0 <= j < |s|
        ensures IsDigit(s[j])
      {
        if j >= k {
          assert s[j] == d[j - k];
        }
      }
    }
    if |d| == 0 {
      if k > 0 {
        assert s == Zeros(k - 1) + "0";
        assert s[..|s| - 1] == Zeros(k - 1) + [];
        LeadingZerosValue(k - 1, []);
      }
    } else {
      var d' := d[..|d| - 1];
      assert s[..|s| - 1] == Zeros(k) + d';
      LeadingZerosValue(k, d');
    }
  }

  /** Python's `format(n, "0{width}d")` for a non-negative integer: `str(n)`
      left-padded with zeros to at least `width` characters. */
  function ZeroPad(n: nat, width: nat): (r: string)
    ensures AllDigits(r)
    ensures DecimalValue(r) == n
    ensures |r| == Max(width, |NatToDecimal(n)|)
  {
    var d := NatToDecimal(n);
    var pad := if |d| < width then width - |d| else 0;
    LeadingZerosValue(pad, d);
    DecimalRoundTrip(n);
    Zeros(pad) + d
  }

  /** True when `pat` occurs in `s` starting at position `k`. */
  predicate OccursAt(s: string, pat: string, k: nat) {
    k + |pat| <= |s| && s[k..k + |pat|] == pat
  }

  /** Python's `s.replace(pat, rep)`: scan left to right, replacing each
      non-overlapping occurrence of `pat`. */
  function ReplaceAll(s: string, pat: string, rep: string): string
    requires |pat| > 0
    decreases |s|
  {
    if |s| < |pat| then s
    else if s[..|pat|] == pat then rep + ReplaceAll(s[|pat|..], pat, rep)
    else [s[0]] + ReplaceAll(s[1..], pat, rep)
  }

  /** With no occurrence of `pat` in `s`, `replace` changes nothing. */
  lemma {:induction false} ReplaceAllUnchanged(s: string, pat: string, rep: string)
    requires |pat| > 0
    requires forall k: nat :: !OccursAt(s, pat, k)
    ensures ReplaceAll(s, pat, rep) == s
    decreases |s|
  {
    if |s| >= |pat| {
      assert !OccursAt(s, pat, 0);
      forall k: nat ensures !OccursAt(s[1..], pat, k) {
        OccursAtTail(s, pat, k);
      }
      ReplaceAllUnchanged(s[1..], pat, rep);
      assert s == [s[0]] + s[1..];
    }
  }

  /** Replacing one character by another is a pointwise map that keeps the length. */
  lemma {:induction false} ReplaceAllChar(s: string, c: char, d: char)
    ensures var r := ReplaceAll(s, [c], [d]);
            |r| == |s| && forall k :: 0 <= k < |s| ==> r[k] == (if s[k] == c then d else s[k])
    decreases |s|
  {
    if |s| > 0 {
      ReplaceAllChar(s[1..], c, d);
      if s[..1] == [c] {
        assert s[0] == c;
      } else {
        assert s[0] != c;
      }
    }
  }

  /** Dropping the first character moves every occurrence one place left. */
  lemma OccursAtTail(s: string, pat: string, k: nat)
    requires |s| > 0
    ensures OccursAt(s[1..], pat, k) <==> OccursAt(s, pat, k + 1)
  {
    if k + |pat| <= |s[1..]| {
      assert s[1..][k..k + |pat|] == s[k + 1..k + 1 + |pat|];
    }
  }

  /** Where `pat` does not start at the front, `replace` keeps the first character. */
  lemma ReplaceAllKeepsHead(s: string, pat: string, rep: string)
    requires |pat| > 0 && |s| > 0 && !OccursAt(s, pat, 0)
    ensures ReplaceAll(s, pat, rep) == [s[0]] + ReplaceAll(s[1..], pat, rep)
  {
    if |s| < |pat| {
      assert ReplaceAll(s[1..], pat, rep) == s[1..];
    } else {
      assert s[..|pat|] != pat;
    }
  }

  /** Where `pat` does not start anywhere inside `a`, replacing in `a + b`
      leaves `a` as it is and works on `b` alone. */
  lemma {:induction false} ReplaceAllSkipsPrefix(a: string, b: string, pat: string, rep: string)
    requires |pat| > 0
    requires forall k: nat :: k < |a| ==> !OccursAt(a + b, pat, k)
    ensures ReplaceAll(a + b, pat, rep) == a + ReplaceAll(b, pat, rep)
    decreases |a|
  {
    if |a| == 0 {
      assert a + b == b;
    } else {
      var s, rest := a + b, ReplaceAll(b, pat, rep);
      assert s[0] == a[0] && s[1..] == a[1..] + b;
      assert !OccursAt(s, pat, 0);
      NoOccurrenceInTail(a, b, pat);
      ReplaceAllSkipsPrefix(a[1..], b, pat, rep);
      ReplaceAllKeepsHead(s, pat, rep);
      assert a + rest == [a[0]] + (a[1..] + rest);
    }
  }

  lemma NoOccurrenceInTail(a: string, b: string, pat: string)
    requires |a| > 0
    requires forall k: nat :: k < |a| ==> !OccursAt(a + b, pat, k)
    ensures forall k: nat :: k < |a[1..]| ==> !OccursAt(a[1..] + b, pat, k)
  {
    var s := a + b;
    assert s[1..] == a[1..] + b;
    forall k: nat | k < |a[1..]| ensures !OccursAt(a[1..] + b, pat, k) {
      OccursAtTail(s, pat, k);
    }
  }

  /** Python's `a < b` on `str`: code-point lexicographic order, a proper
      prefix coming first. */
  predicate LexLess(a: string, b: string)
    decreases |a|
  {
    |b| > 0 && (|a| == 0 || a[0] < b[0] || (a[0] == b[0] && LexLess(a[1..], b[1..])))
  }

  predicate LexLe(a: string, b: string) {
    a == b || LexLess(a, b)
  }

  lemma {:induction false} LexLessIrreflexive(a: string)
    ensures !LexLess(a, a)
    decreases |a|
  {
    if |a| > 0 {
      LexLessIrreflexive(a[1..]);
    }
  }

  lemma {:induction false} LexLessTransitive(a: string, b: string, c: string)
    requires LexLess(a, b) && LexLess(b, c)
    ensures LexLess(a, c)
    decreases |a|
  {
    if |a| > 0 && a[0] == b[0] && b[0] == c[0] {
      LexLessTransitive(a[1..], b[1..], c[1..]);
    }
  }

  lemma {:induction false} LexLessTotal(a: string, b: string)
    ensures a == b || LexLess(a, b) || LexLess(b, a)
    decreases |a|
  {
    if |a| > 0 && |b| > 0 && a[0] == b[0] {
      LexLessTotal(a[1..], b[1..]);
      if a[1..] == b[1..] {
        assert a == [a[0]] + a[1..] && b == [b[0]] + b[1..];
      }
    }
  }

  lemma LexLessAsymmetric(a: string, b: string)
    requires LexLess(a, b)
    ensures !LexLess(b, a)
  {
    if LexLess(b, a) {
      LexLessTransitive(a, b, a);
      LexLessIrreflexive(a);
    }
  }

  /** A shared prefix does not affect the comparison. */
  lemma {:induction false} LexLessCommonPrefix(p: string, a: string, b: string)
    ensures LexLess(p + a, p + b) <==> LexLess(a, b)
    decreases |p|
  {
    if |p| > 0 {
      assert (p + a)[1..] == p[1..] + a;
      assert (p + b)[1..] == p[1..] + b;
      LexLessCommonPrefix(p[1..], a, b);
    } else {
      assert p + a == a && p + b == b;
    }
  }

  /** Once two strings of equal length differ, whatever follows them is irrelevant. */
  lemma {:induction false} LexLessSameLengthExtend(x: string, y: string, s: string, t: string)
    requires |x| == |y| && LexLess(x, y)
    ensures LexLess(x + s, y + t)
    decreases |x|
  {
    if x[0] == y[0] {
      assert (x + s)[1..] == x[1..] + s;
      assert (y + t)[1..] == y[1..] + t;
      LexLessSameLengthExtend(x[1..], y[1..], s, t);
    }
  }

  /** Appending one character to each of two equal-length strings. */
  lemma {:induction false} LexLessSnoc(a: string, b: string, x: char, y: char)
    requires |a| == |b|
    ensures LexLess(a + [x], b + [y]) <==> LexLess(a, b) || (a == b && x < y)
    decreases |a|
  {
    if |a| > 0 {
      assert (a + [x])[1..] == a[1..] + [x];
      assert (b + [y])[1..] == b[1..] + [y];
      LexLessSnoc(a[1..], b[1..], x, y);
      assert a == [a[0]] + a[1..] && b == [b[0]] + b[1..];
    }
  }

  /** For digit strings of one width, string order is numeric order. */
  lemma {:induction false} SameWidthDigitsOrder(a: string, b: string)
    requires |a| == |b| && AllDigits(a) && AllDigits(b)
    ensures LexLess(a, b) <==> DecimalValue(a) < DecimalValue(b)
    decreases |a|
  {
    if |a| > 0 {
      var a', b' := a[..|a| - 1], b[..|b| - 1];
      var x, y := a[|a| - 1], b[|b| - 1];
      assert a == a' + [x] && b == b' + [y];
      LexLessSnoc(a', b', x, y);
      SameWidthDigitsOrder(a', b');
      SameWidthDigitsOrder(b', a');
      LexLessTotal(a', b');
    }
  }
}
